=== FILE: README.md ===
# Whitelist contract model

A Dafny model of the NEAR smart contract that keeps a whitelist of contract accounts
(`contract/src/lib.rs`).

Anyone may file a proposal by attaching exactly 1 NEAR. A proposal either adds a new
project or updates an approved one. A project is a set of contract accounts plus optional
links and a description. Guardians vote on proposals. Guardians are accounts that the
contract account itself added. When a proposal collects three votes:

- it is applied;
- it is removed;
- the proposer gets the 1 NEAR back.

`approved_contracts` counts how many approved projects list each account. An account is
whitelisted while it has an entry there. Proposal ids and project ids both come from
`generate_id`. It joins the block time in seconds and a running counter, both written in
decimal.

Each public method is a pure function. It takes the contract state, the call environment
(caller, contract account, attached deposit, block time in nanoseconds) and the arguments.
It returns an `Outcome`, which is one of:

- a panic with the error the source raises, after which the state is reverted;
- the new state, the return value and the refunds the call sends.

Modules:

- `Wrappers`, `Seqs`, `Decimal`: options, duplicate-free sequences, decimal rendering.
- `IterableMaps`: the SDK's ordered storage map.
- `ContractCounts`: the `approved_contracts` reference counts.
- `Pagination`: the `rev().skip().take()` chain of the `list_*` views, including the
  `i32 as usize` cast.
- `Whitelist`: the state and the methods.
- `Invariants`: the state invariant and its preservation by every method.
- `Properties`: properties that relate several calls.
- `Runs`: arbitrary transaction sequences.
- `Scenario`: the repository's end-to-end test, restated as lemmas.

Environment, clocks and transfers are parameters or results:

- The caller, the attached deposit and the block timestamp are fields of `Env`.
- `#[private]` means that the caller is the contract account itself.
- A refund is a `Transfer` record in the outcome, not an executed promise.

## Model

| member | source | states |
|---|---|---|
| Whitelist.GenerateId | contract/src/lib.rs:79-92 | the new running id is the old one plus one, and the id is the block time in whole seconds followed by that running id, both in decimal |
| Decimal.JoinedDistinct | contract/src/lib.rs:82-91 | joining two decimal renderings loses nothing when the first number does not shrink and the second strictly grows, so two such ids never coincide |
| Decimal.ParseShow | contract/src/lib.rs:87-88 | the decimal rendering of `to_string` reads back to the same number |
| Decimal.ShowInjective | contract/src/lib.rs:87-88 | different numbers have different decimal renderings |
| Decimal.ShowLengthMonotone | contract/src/lib.rs:87-88 | a larger number never has a shorter decimal rendering |
| Invariants.NextIdIsFresh | contract/src/lib.rs:79-92 | if block times have not gone backwards, the next generated id is neither a pending proposal nor an approved project, so the "id collision" panic cannot happen |
| Invariants.NextIdIssued | contract/src/lib.rs:79-92 | the generated id is issued at the current second with the new running id |
| Whitelist.AddGuardian | contract/src/lib.rs:64-67 | panics exactly when the caller is not the contract account; otherwise the account is a guardian afterwards, no other guardian changes and nothing else changes |
| Whitelist.RevokeGuardian | contract/src/lib.rs:69-77 | panics exactly when the caller is not the contract account; otherwise the account is no longer a guardian; when it was one, its vote leaves every pending proposal and nothing else in them changes; when it was not, the state is unchanged |
| Whitelist.StripVotes | contract/src/lib.rs:72-76 | every pending proposal keeps its place and all its fields, minus the revoked account's vote |
| Properties.GuardiansListed | contract/src/lib.rs:64-77 | `list_guardians` shows an added guardian, stops showing a revoked one, and no other account changes membership |
| Properties.AddThenRevokeRestores | contract/src/lib.rs:64-77 | adding an account that is not a guardian and then revoking it restores the original state |
| Whitelist.ContractIdSet | contract/src/lib.rs:101 | the `HashSet` of contract accounts holds no duplicates and exactly the accounts that were given |
| Whitelist.Propose | contract/src/lib.rs:112-135 | panics with the id-collision error exactly when the generated id (this second followed by the running id plus one) is already a pending proposal; otherwise files the proposal under that id, returns it, appends it to the iteration order and bumps the running id, changing nothing else |
| Whitelist.AddProject | contract/src/lib.rs:98-136 | panics unless exactly 1 NEAR is attached; on success it files a NEW proposal with no votes, proposed by the caller, whose project holds the given accounts without duplicates, under the generated id, which it returns and appends to the proposals' order; with 1 NEAR it panics with "id collision" exactly when that id is already pending; projects, counts and guardians are unchanged |
| Whitelist.UpdateProject | contract/src/lib.rs:138-181 | panics unless exactly 1 NEAR is attached, then with "Project not found" when the project is not approved; on success it files an UPDATE proposal that names the project, has no votes and is proposed by the caller, under the generated id, which it returns and appends to the proposals' order; with 1 NEAR and an approved project it panics with "id collision" exactly when that id is already pending; projects, counts and guardians are unchanged |
| Invariants.AddProjectKeepsInv | contract/src/lib.rs:98-136 | from a state that keeps the invariant and with a block time not earlier than any before it, `add_project` succeeds exactly when 1 NEAR is attached and keeps the invariant |
| Invariants.UpdateProjectKeepsInv | contract/src/lib.rs:138-181 | likewise, `update_project` succeeds exactly when 1 NEAR is attached and the project is approved, and keeps the invariant |
| Invariants.ProposeKeepsInv | contract/src/lib.rs:112-135 | filing a vote-free proposal with duplicate-free accounts keeps the invariant and never collides |
| Whitelist.VoteProposal | contract/src/lib.rs:183-304 | panics "not a qualified guardian" for a non-guardian, then "Proposal not found" for an unknown id, and succeeds exactly otherwise; below three votes only the caller's vote is added; at three the proposal is removed, the proposer is refunded 1 NEAR, and the proposal is applied: a NEW one is stored under the next generated id, appended to the projects' order when that id is new, with every listed account counted once more; an UPDATE of an approved project replaces it in place, moving one count from each old account to each new one; an UPDATE of a missing project changes nothing else |
| Whitelist.Approve | contract/src/lib.rs:198-293 | NEW: every listed account's count grows by one and the project is stored under the next generated id, appended to the projects' order when that id is new. UPDATE of an approved project: the replaced project's accounts lose one count (entries reaching zero are removed), the new accounts gain one, and the project is replaced in place. UPDATE naming no project or an unknown one: nothing changes |
| ContractCounts.Increment | contract/src/lib.rs:210-220 | the account's count goes up by one, inserting 1 when absent; other accounts keep their counts |
| ContractCounts.Decrement | contract/src/lib.rs:246-262 | the account's count goes down by one, and its entry is gone afterwards whenever the count was at most 1; an absent account is left alone; other accounts keep their counts |
| ContractCounts.IncrementAll | contract/src/lib.rs:209-221 | each account's count grows by the number of times the list names it; map validity and positive counts are kept |
| ContractCounts.DecrementAll | contract/src/lib.rs:243-263 | each account's count shrinks by the number of times the list names it, never below zero; map validity and positive counts are kept |
| Invariants.ApproveNewKeepsCounts | contract/src/lib.rs:208-228 | after a NEW approval, each count still equals the number of approved projects that list the account |
| Invariants.ApproveUpdateKeepsCounts | contract/src/lib.rs:229-291 | after an UPDATE approval, each count still equals the number of approved projects that list the account |
| Invariants.ApproveKeepsIds | contract/src/lib.rs:223-227 | every stored id is still one that was generated, at the new horizon |
| Invariants.ApproveKeepsInv | contract/src/lib.rs:198-293 | applying a proposal keeps the invariant |
| Invariants.VoteProposalKeepsInv | contract/src/lib.rs:183-304 | a successful vote keeps the invariant: no pending proposal holds three votes or a non-guardian's vote, and counts match the projects |
| Properties.ApprovedIffThirdNewVoter | contract/src/lib.rs:189-194 | a successful vote applies the proposal exactly when a new voter joins a proposal with two votes, which is exactly when a refund is sent |
| Properties.RepeatVoteChangesNothing | contract/src/lib.rs:189 | a guardian voting again on a proposal it already voted for changes nothing |
| Properties.NewApprovalWhitelists | contract/src/lib.rs:208-228 | the third vote on a NEW proposal stores its project under a fresh id and whitelists every account it lists |
| Properties.UpdateApprovalDelists | contract/src/lib.rs:229-291 | the third vote on an UPDATE de-whitelists an account that only the replaced project listed and the new version drops |
| Whitelist.WithdrawVoteOnProposal | contract/src/lib.rs:306-326 | panics "not a qualified guardian", "Unable to find the proposal." or "You did not vote the proposal before." in that order, and succeeds exactly when the caller is a guardian who voted on an existing proposal; it then removes exactly the caller's vote and changes nothing else |
| Invariants.WithdrawVoteKeepsInv | contract/src/lib.rs:306-326 | a successful withdrawal keeps the invariant |
| Properties.VoteThenWithdrawRestores | contract/src/lib.rs:183-326 | a vote that does not reach the threshold, followed by its withdrawal, restores the state |
| Whitelist.CheckContractWhitelisted | contract/src/lib.rs:328-330 | with positive counts, an account is whitelisted exactly when its count is at least one |
| Invariants.WhitelistedIffListed | contract/src/lib.rs:328-330 | in a state that keeps the invariant, an account is whitelisted exactly when some approved project lists it |
| Whitelist.GetProjectById | contract/src/lib.rs:359-361 | returns the stored project exactly when the id is approved |
| Whitelist.ListEntries | contract/src/lib.rs:332-357 | a page holds at most `limit as usize` entries, all current; for a non-negative start it counts from the last key of the storage order backwards, without gaps |
| Whitelist.PageOfEntries | contract/src/lib.rs:332-357 | a page of a map's items holds current entries in reverse iteration order starting at `from_index` |
| Whitelist.ListProjects | contract/src/lib.rs:332-339 | at most `limit as usize` approved projects, each exactly as `get_project_by_id` returns it |
| Whitelist.ListProposals | contract/src/lib.rs:341-348 | at most `limit as usize` pending proposals, each with its stored contents |
| Whitelist.ListContracts | contract/src/lib.rs:350-357 | at most `limit as usize` whitelisted accounts, each with its stored count |
| Pagination.AsUsize | contract/src/lib.rs:336-337 | `i32 as usize` on wasm32 agrees with the value modulo 2^32: a non-negative value is kept and a negative one becomes larger than any `i32` |
| Pagination.Reverse | contract/src/lib.rs:335 | `rev()` yields the element at mirrored positions |
| Pagination.Page | contract/src/lib.rs:333-338 | a page holds `min(limit, len - from_index)` elements, or none when `from_index` is past the end, taken from the end backwards |
| Pagination.PagesConcatenate | contract/src/lib.rs:333-338 | two consecutive pages, laid end to end, form the page of their combined size |
| Pagination.FullPage | contract/src/lib.rs:333-338 | a page from 0 with a large enough limit is the whole collection, last stored first |
| Pagination.NegativeFromIndexIsEmpty | contract/src/lib.rs:336 | a negative `from_index` skips past the end of every collection of at most `i32::MAX` entries, so the page is empty |
| Pagination.NegativeLimitTakesRest | contract/src/lib.rs:337 | a negative `limit` takes everything after `from_index` |
| Properties.ProjectPagesConcatenate | contract/src/lib.rs:332-339 | paging through `list_projects` with a fixed page size visits the projects without gaps or overlaps |
| Properties.NewProposalListedFirst | contract/src/lib.rs:341-348 | the proposal that was just filed heads `list_proposals(0, 1)` |
| IterableMaps.Get | contract/src/lib.rs:359-361 | finds a value exactly for a stored key |
| IterableMaps.Insert | contract/src/lib.rs:133 | updates the entry; an existing key keeps its place in the order and a new key is appended; validity is kept |
| IterableMaps.Remove | contract/src/lib.rs:293 | removes exactly the key; the last key of the order takes its place and the others keep theirs; validity is kept |
| Properties.RemovalMovesLastKey | contract/src/lib.rs:341-348 | with proposals A, B, C filed and A removed, `list_proposals` shows B then C |
| IterableMaps.Items | contract/src/lib.rs:334 | `iter()` yields every key of a valid map once, in order, with its value |
| Seqs.Dedup | contract/src/lib.rs:101 | the duplicate-free list has the same members as its input |
| Seqs.IndexOf | contract/src/lib.rs:293 | finds the first position of a key in the order |
| Seqs.SwapRemove | contract/src/lib.rs:253-254 | the order shrinks by one, the last key moves into the removed position, the others stay put |
| Seqs.SwapRemoveMembers | contract/src/lib.rs:253-254 | swap-removing from a duplicate-free order drops exactly the removed key and keeps the order duplicate-free |
| Seqs.NoDupsMultiplicity | contract/src/lib.rs:209 | in a duplicate-free list every account occurs once, so a loop over it counts each account once |
| Invariants.InitInv | contract/src/lib.rs:49-59 | the freshly deployed contract keeps the invariant |
| Invariants.InvLaterHorizon | contract/src/lib.rs:82 | the invariant survives when time moves forward |
| Invariants.AddGuardianKeepsInv | contract/src/lib.rs:64-67 | adding a guardian keeps the invariant |
| Invariants.RevokeGuardianKeepsInv | contract/src/lib.rs:69-77 | revoking a guardian keeps the invariant, because its votes are stripped |
| Runs.SecondsMonotone | contract/src/lib.rs:82 | whole seconds do not decrease as the nanosecond block time grows |
| Runs.ExecuteKeepsInv | contract/src/lib.rs:62-362 | any one transaction, whether successful or reverted, keeps the invariant |
| Runs.RunKeepsInv | contract/src/lib.rs:62-362 | every chronological sequence of transactions keeps the invariant |
| Runs.ReachableStates | contract/src/lib.rs:62-362 | in every reachable state: no proposal waits with three votes or a non-guardian's vote; whitelisted means listed by an approved project; `add_project` with 1 NEAR succeeds for any arguments |
| Scenario.VoteThrice | contract/tests/test_basics.rs:131-151 | three guardian votes on a fresh proposal succeed, apply it, remove it and refund the proposer |
| Scenario.ProposalPhase | contract/tests/test_basics.rs:17-76 | nothing is whitelisted at first; `add_project` fails without a deposit and with 5 NEAR, and succeeds with 1 NEAR without whitelisting anything |
| Scenario.EarlyVotesRefused | contract/tests/test_basics.rs:78-106 | votes from accounts that are not guardians yet are refused |
| Scenario.ApprovalPhase | contract/tests/test_basics.rs:108-161 | once the three guardians are added, their votes approve the project, whitelist "aa-harvest-moon.near" and refund the proposer |
| Scenario.UpdateFiling | contract/tests/test_basics.rs:170-184 | filing the update of the approved project succeeds and changes nothing else |
| Scenario.UpdateApproval | contract/tests/test_basics.rs:186-213 | approving the update whitelists "nothere.near" and de-whitelists "aa-harvest-moon.near" |
| Scenario.TestContractIsOperational | contract/tests/test_basics.rs:5-216 | the whole test: nothing whitelisted before approval; votes of accounts not yet guardians refused; approval whitelists and refunds; `list_projects(0, 20)` holds the one project; the approved update de-whitelists "aa-harvest-moon.near" |

## Left out

- The refund `Promise::transfer` is recorded as a `Transfer` in the outcome. Promise execution, gas and balances are not modelled.
- `log!` messages are left out, including the messages of the two UPDATE branches that change nothing.
- The SDK's rejection of deposits on non-`#[payable]` methods is left out. So are the JSON and Borsh serialisation and the storage keys.
- `running_id` and the counts are unbounded naturals. A `u32` overflow of `last_running_id + 1` or of a count is not modelled. It would need more than four billion proposals or approvals.
- ContractCounts.Decrement: a stored count of 0 is removed like a count of 1. In the source, `contract_id_count - 1` would underflow instead. The invariant proves that no count of 0 is ever stored.
- IterableMaps.Remove: follows the key vector's `swap_remove` in the SDK's `IterableMap`. The SDK itself is not part of this model. So after a removal, `list_proposals` and `list_contracts` are newest first only up to that swap.
- Seqs.Dedup: keeps first occurrences. This stands in for `HashSet` iteration order, which is unspecified.
- ListProjects, ListProposals, ListContracts: the order is stated for a non-negative `from_index` over a valid map. For a negative one, see `Pagination.NegativeFromIndexIsEmpty`.
- Whitelist.ListGuardians: returns the guardian set. It has no contract of its own; `Properties.GuardiansListed` states its behaviour.
- A project-to-contract relation of at most one project per account is not enforced by the code. Two approved projects may list the same account, and the counts track how many do. The model follows the code.
- The web front-end uses hooks with no definition in `app/src/hooks/whitelistQueries.tsx`: `useProposalById` (`app/src/components/proposal/ProposalCardWithData.tsx:18`), `useProjectIdByContractId` (`app/src/app/page.tsx:60`) and `useMetadataStructure` (`app/src/components/Proposals.tsx:48`). The contract has no matching view, so none of these is modelled.
- The `app/` web front-end is not part of this model.

=== FILE: contract_counts.dfy ===
/**
 * The `approved_contracts` map of the contract: how many approved projects list each
 * contract account.  A contract account is whitelisted while it has an entry.
 */
module ContractCounts {
  import opened Wrappers
  import opened IterableMaps

  type AccountId = string
  type Counts = IterMap<AccountId, nat>

  /** The count of `c`, zero when it has no entry. */
  function CountOf(counts: Counts, c: AccountId): nat {
    if c in counts.entries then counts.entries[c] else 0
  }

  /** Every stored count is at least one, so having an entry means being counted. */
  ghost predicate Positive(counts: Counts) {
    forall c :: c in counts.entries ==> 1 <= counts.entries[c]
  }

  /** One step of the NEW/UPDATE approval loops: insert 1 when absent, add 1 otherwise. */
  function Increment(counts: Counts, c: AccountId): (r: Counts)
    ensures CountOf(r, c) == CountOf(counts, c) + 1
    ensures forall d :: d != c ==> CountOf(r, d) == CountOf(counts, d)
    ensures Valid(counts) ==> Valid(r)
    ensures Positive(counts) ==> Positive(r)
  {
    match Get(counts, c)
    case None => Insert(counts, c, 1)
    case Some(n) => Insert(counts, c, n + 1)
  }

  /**
   * One step of the UPDATE approval's first loop: nothing when absent, remove the entry
   * when its count is 1, subtract 1 otherwise.  A stored 0 never arises (see `Positive`);
   * it is removed like a 1.
   */
  function Decrement(counts: Counts, c: AccountId): (r: Counts)
    ensures CountOf(r, c) == if CountOf(counts, c) == 0 then 0 else CountOf(counts, c) - 1
    ensures CountOf(counts, c) <= 1 ==> c !in r.entries
    ensures forall d :: d != c ==> CountOf(r, d) == CountOf(counts, d)
    ensures Valid(counts) ==> Valid(r)
    ensures Positive(counts) ==> Positive(r)
  {
    match Get(counts, c)
    case None => counts
    case Some(n) => if n <= 1 then Remove(counts, c) else Insert(counts, c, n - 1)
  }

  /** `for contract_id in ids { increment }`: each count grows by the occurrences of its id. */
  function IncrementAll(counts: Counts, ids: seq<AccountId>): (r: Counts)
    ensures forall c :: CountOf(r, c) == CountOf(counts, c) + multiset(ids)[c]
    ensures Valid(counts) ==> Valid(r)
    ensures Positive(counts) ==> Positive(r)
    decreases |ids|
  {
    if ids == [] then counts
    else
      assert ids == [ids[0]] + ids[1..];
      IncrementAll(Increment(counts, ids[0]), ids[1..])
  }

  /** `for contract_id in ids { decrement }`: each count shrinks by its occurrences, not below zero. */
  function DecrementAll(counts: Counts, ids: seq<AccountId>): (r: Counts)
    ensures forall c :: CountOf(r, c) == if CountOf(counts, c) <= multiset(ids)[c] then 0
                                         else CountOf(counts, c) - multiset(ids)[c]
    ensures Valid(counts) ==> Valid(r)
    ensures Positive(counts) ==> Positive(r)
    decreases |ids|
  {
    if ids == [] then counts
    else
      assert ids == [ids[0]] + ids[1..];
      DecrementAll(Decrement(counts, ids[0]), ids[1..])
  }
}

=== FILE: decimal.dfy ===
/**
 * Decimal rendering of unsigned integers, as Rust's `to_string` prints a `u32` or a `u64`:
 * no sign, no leading zero, "0" for zero.
 */
module Decimal {

  function DigitChar(d: nat): char
    requires d < 10
  {
    (48 + d) as char
  }

  function DigitValue(c: char): nat
    requires '0' <= c <= '9'
  {
    c as int - 48
  }

  predicate IsDigits(s: string) {
    forall i :: 0 <= i < |s| ==> '0' <= s[i] <= '9'
  }

  function Show(n: nat): (s: string)
    ensures 1 <= |s|
    ensures IsDigits(s)
    ensures s[0] == '0' ==> n == 0
  {
    if n < 10 then [DigitChar(n)] else Show(n / 10) + [DigitChar(n % 10)]
  }

  /** Reads a digit string back as a number (the left inverse of `Show`). */
  function Parse(s: string): nat
    requires IsDigits(s)
  {
    if s == [] then 0 else Parse(s[..|s| - 1]) * 10 + DigitValue(s[|s| - 1])
  }

  lemma {:induction false} ParseShow(n: nat)
    ensures Parse(Show(n)) == n
  {
    if 10 <= n {
      var s := Show(n);
      assert s[..|s| - 1] == Show(n / 10);
      ParseShow(n / 10);
    }
  }

  lemma ShowInjective(a: nat, b: nat)
    requires Show(a) == Show(b)
    ensures a == b
  {
    ParseShow(a);
    ParseShow(b);
  }

  /** A larger number never has a shorter rendering. */
  lemma {:induction false} ShowLengthMonotone(a: nat, b: nat)
    requires a <= b
    ensures |Show(a)| <= |Show(b)|
  {
    if 10 <= a {
      ShowLengthMonotone(a / 10, b / 10);
    }
  }

  /**
   * Gluing two renderings together loses no information once the first number may
   * only grow and the second must strictly grow: `Show(s) + Show(r)` then differs
   * from `Show(t) + Show(q)`.
   */
  lemma JoinedDistinct(s: nat, r: nat, t: nat, q: nat)
    requires s <= t && r < q
    ensures Show(s) + Show(r) != Show(t) + Show(q)
  {
    if Show(s) + Show(r) == Show(t) + Show(q) {
      ShowLengthMonotone(s, t);
      ShowLengthMonotone(r, q);
      var x := Show(s) + Show(r);
      assert |Show(s)| == |Show(t)|;
      assert Show(r) == x[|Show(s)|..] == Show(q);
      ShowInjective(r, q);
      assert false;
    }
  }
}

=== FILE: invariants.dfy ===
/**
 * The invariant every state reached by the contract's methods keeps, and its consequences:
 *  - each pending proposal has fewer than three votes, all cast by current guardians;
 *  - each count in `approved_contracts` is positive and equals the number of approved
 *    projects listing that account, so an account is whitelisted exactly when an approved
 *    project lists it;
 *  - every proposal id and project id was generated from a running id not above the current
 *    one and a timestamp not after the `horizon` (the latest block time seen, in seconds), so
 *    with block times that never go backwards a generated id is always fresh.
 */
module Invariants {
  import opened Wrappers
  import opened Seqs
  import opened Decimal
  import opened IterableMaps
  import opened ContractCounts
  import opened Whitelist

  /** `id` came out of `generate_id` at some second up to `horizon` with a running id up to `runningId`. */
  ghost predicate Issued(id: string, horizon: nat, runningId: nat) {
    exists s: nat, n: nat :: s <= horizon && 1 <= n <= runningId && id == IdOf(s, n)
  }

  ghost predicate MapsValid(st: Contract) {
    Valid(st.approvedContracts) && Valid(st.proposals) && Valid(st.approvedProjects)
  }

  ghost predicate VotesBelowThreshold(st: Contract) {
    forall id :: id in st.proposals.entries ==>
      |st.proposals.entries[id].votes| < APPROVAL_THRESHOLD && st.proposals.entries[id].votes <= st.guardians
  }

  ghost predicate IdsIssued(st: Contract, horizon: nat) {
    && (forall id :: id in st.proposals.entries ==> Issued(id, horizon, st.runningId))
    && (forall id :: id in st.approvedProjects.entries ==> Issued(id, horizon, st.runningId))
  }

  /** Stored contract-account lists are sets. */
  ghost predicate ContractSetsDistinct(st: Contract) {
    && (forall id :: id in st.proposals.entries ==> NoDups(st.proposals.entries[id].projectInfo.contractIds))
    && (forall id :: id in st.approvedProjects.entries ==> NoDups(st.approvedProjects.entries[id].contractIds))
  }

  /** The approved projects that list contract account `c`. */
  ghost function Holders(projects: IterMap<ProjectId, ProjectInfo>, c: AccountId): set<ProjectId> {
    set id | id in projects.entries && c in projects.entries[id].contractIds
  }

  ghost predicate CountsMatchProjects(st: Contract) {
    && Positive(st.approvedContracts)
    && forall c :: CountOf(st.approvedContracts, c) == |Holders(st.approvedProjects, c)|
  }

  ghost predicate Inv(st: Contract, horizon: nat) {
    && MapsValid(st)
    && VotesBelowThreshold(st)
    && IdsIssued(st, horizon)
    && ContractSetsDistinct(st)
    && CountsMatchProjects(st)
  }

  // ---------------------------------------------------------------------------------------
  // Ids
  // ---------------------------------------------------------------------------------------

  /** An id issued up to `horizon` differs from the next one generated at any later second. */
  lemma IssuedIsNotNext(id: string, horizon: nat, runningId: nat, seconds: nat)
    requires Issued(id, horizon, runningId) && horizon <= seconds
    ensures id != IdOf(seconds, runningId + 1)
  {
    var s: nat, n: nat :| s <= horizon && 1 <= n <= runningId && id == IdOf(s, n);
    JoinedDistinct(s, n, seconds, runningId + 1);
  }

  lemma IssuedMonotone(id: string, horizon: nat, runningId: nat, horizon': nat, runningId': nat)
    requires Issued(id, horizon, runningId) && horizon <= horizon' && runningId <= runningId'
    ensures Issued(id, horizon', runningId')
  {
    var s: nat, n: nat :| s <= horizon && 1 <= n <= runningId && id == IdOf(s, n);
    assert s <= horizon' && 1 <= n <= runningId' && id == IdOf(s, n);
  }

  lemma IdsIssuedMonotone(st: Contract, horizon: nat, st': Contract, horizon': nat)
    requires IdsIssued(st, horizon) && horizon <= horizon' && st.runningId <= st'.runningId
    requires st'.proposals.entries.Keys <= st.proposals.entries.Keys
    requires st'.approvedProjects.entries.Keys <= st.approvedProjects.entries.Keys
    ensures IdsIssued(st', horizon')
  {
    forall id | id in st'.proposals.entries ensures Issued(id, horizon', st'.runningId) {
      IssuedMonotone(id, horizon, st.runningId, horizon', st'.runningId);
    }
    forall id | id in st'.approvedProjects.entries ensures Issued(id, horizon', st'.runningId) {
      IssuedMonotone(id, horizon, st.runningId, horizon', st'.runningId);
    }
  }

  /** The invariant only weakens as the horizon moves forward. */
  lemma InvLaterHorizon(st: Contract, horizon: nat, horizon': nat)
    requires Inv(st, horizon) && horizon <= horizon'
    ensures Inv(st, horizon')
  {
    IdsIssuedMonotone(st, horizon, st, horizon');
  }

  /** The next generated id is not yet used as a proposal id nor as a project id. */
  lemma NextIdIsFresh(st: Contract, horizon: nat, blockTimestamp: nat)
    requires IdsIssued(st, horizon) && horizon <= Seconds(blockTimestamp)
    ensures GenerateId(st.runningId, blockTimestamp).1 !in st.proposals.entries
    ensures GenerateId(st.runningId, blockTimestamp).1 !in st.approvedProjects.entries
  {
    var id := GenerateId(st.runningId, blockTimestamp).1;
    if id in st.proposals.entries {
      IssuedIsNotNext(id, horizon, st.runningId, Seconds(blockTimestamp));
    }
    if id in st.approvedProjects.entries {
      IssuedIsNotNext(id, horizon, st.runningId, Seconds(blockTimestamp));
    }
  }

  lemma NextIdIssued(runningId: nat, blockTimestamp: nat)
    ensures Issued(GenerateId(runningId, blockTimestamp).1, Seconds(blockTimestamp), runningId + 1)
  {
    var s, n := Seconds(blockTimestamp), runningId + 1;
    assert s <= Seconds(blockTimestamp) && 1 <= n <= runningId + 1 && GenerateId(runningId, blockTimestamp).1 == IdOf(s, n);
  }

  // ---------------------------------------------------------------------------------------
  // Reference counts
  // ---------------------------------------------------------------------------------------

  lemma HoldersInsertFresh(projects: IterMap<ProjectId, ProjectInfo>, id: ProjectId, info: ProjectInfo, c: AccountId)
    requires id !in projects.entries
    ensures Holders(Insert(projects, id, info), c) == Holders(projects, c) + (if c in info.contractIds then {id} else {})
  {
  }

  lemma HoldersReplace(projects: IterMap<ProjectId, ProjectInfo>, id: ProjectId, info: ProjectInfo, c: AccountId)
    requires id in projects.entries
    ensures Holders(Insert(projects, id, info), c) == (Holders(projects, c) - {id}) + (if c in info.contractIds then {id} else {})
  {
  }

  /** Approving a NEW proposal stores the project under a fresh id and counts its accounts once more. */
  lemma ApproveNewKeepsCounts(st: Contract, horizon: nat, p: ProposalInfo, blockTimestamp: nat)
    requires Inv(st, horizon) && horizon <= Seconds(blockTimestamp)
    requires p.kind == New && NoDups(p.projectInfo.contractIds)
    ensures CountsMatchProjects(Approve(st, p, blockTimestamp))
  {
    var r := Approve(st, p, blockTimestamp);
    var projectId := IdOf(Seconds(blockTimestamp), st.runningId + 1);
    NextIdIsFresh(st, horizon, blockTimestamp);
    assert r.approvedProjects == Insert(st.approvedProjects, projectId, p.projectInfo);
    forall c ensures CountOf(r.approvedContracts, c) == |Holders(r.approvedProjects, c)| {
      HoldersInsertFresh(st.approvedProjects, projectId, p.projectInfo, c);
      NoDupsMultiplicity(p.projectInfo.contractIds, c);
    }
  }

  /** Approving an UPDATE proposal moves the project's counts from its old accounts to its new ones. */
  lemma ApproveUpdateKeepsCounts(st: Contract, horizon: nat, p: ProposalInfo, blockTimestamp: nat)
    requires Inv(st, horizon)
    requires p.kind == Update && NoDups(p.projectInfo.contractIds)
    ensures CountsMatchProjects(Approve(st, p, blockTimestamp))
  {
    var r := Approve(st, p, blockTimestamp);
    if p.projectId.Some? && p.projectId.value in st.approvedProjects.entries {
      var projectId := p.projectId.value;
      var replaced := st.approvedProjects.entries[projectId];
      assert r.approvedProjects == Insert(st.approvedProjects, projectId, p.projectInfo);
      forall c ensures CountOf(r.approvedContracts, c) == |Holders(r.approvedProjects, c)| {
        HoldersReplace(st.approvedProjects, projectId, p.projectInfo, c);
        NoDupsMultiplicity(p.projectInfo.contractIds, c);
        NoDupsMultiplicity(replaced.contractIds, c);
        assert projectId in Holders(st.approvedProjects, c) <==> c in replaced.contractIds;
      }
    }
  }

  lemma ApproveKeepsIds(st: Contract, horizon: nat, p: ProposalInfo, blockTimestamp: nat)
    requires IdsIssued(st, horizon) && horizon <= Seconds(blockTimestamp)
    ensures IdsIssued(Approve(st, p, blockTimestamp), Seconds(blockTimestamp))
  {
    var r := Approve(st, p, blockTimestamp);
    if p.kind == New {
      var projectId := IdOf(Seconds(blockTimestamp), st.runningId + 1);
      NextIdIssued(st.runningId, blockTimestamp);
      forall id | id in r.approvedProjects.entries ensures Issued(id, Seconds(blockTimestamp), r.runningId) {
        if id != projectId {
          IssuedMonotone(id, horizon, st.runningId, Seconds(blockTimestamp), r.runningId);
        }
      }
      forall id | id in r.proposals.entries ensures Issued(id, Seconds(blockTimestamp), r.runningId) {
        IssuedMonotone(id, horizon, st.runningId, Seconds(blockTimestamp), r.runningId);
      }
    } else {
      IdsIssuedMonotone(st, horizon, r, Seconds(blockTimestamp));
    }
  }

  /** Applying an approved proposal keeps the invariant. */
  lemma ApproveKeepsInv(st: Contract, horizon: nat, p: ProposalInfo, blockTimestamp: nat)
    requires Inv(st, horizon) && horizon <= Seconds(blockTimestamp)
    requires NoDups(p.projectInfo.contractIds)
    ensures Inv(Approve(st, p, blockTimestamp), Seconds(blockTimestamp))
  {
    if p.kind == New {
      ApproveNewKeepsCounts(st, horizon, p, blockTimestamp);
    } else {
      ApproveUpdateKeepsCounts(st, horizon, p, blockTimestamp);
    }
    ApproveKeepsIds(st, horizon, p, blockTimestamp);
  }

  /** Whitelisted means listed by some approved project. */
  lemma WhitelistedIffListed(st: Contract, horizon: nat, c: AccountId)
    requires Inv(st, horizon)
    ensures CheckContractWhitelisted(st, c) <==>
            exists id :: id in st.approvedProjects.entries && c in st.approvedProjects.entries[id].contractIds
  {
    if exists id :: id in st.approvedProjects.entries && c in st.approvedProjects.entries[id].contractIds {
      var id :| id in st.approvedProjects.entries && c in st.approvedProjects.entries[id].contractIds;
      assert id in Holders(st.approvedProjects, c);
    } else {
      assert Holders(st.approvedProjects, c) == {};
    }
  }

  // ---------------------------------------------------------------------------------------
  // Every method keeps the invariant
  // ---------------------------------------------------------------------------------------

  lemma InitInv()
    ensures Inv(Init(), 0)
  {
    forall c ensures CountOf(Init().approvedContracts, c) == |Holders(Init().approvedProjects, c)| {
      assert Holders(Init().approvedProjects, c) == {};
    }
  }

  lemma AddGuardianKeepsInv(st: Contract, horizon: nat, env: Env, accountId: AccountId)
    requires Inv(st, horizon)
    ensures var r := AddGuardian(st, env, accountId); r.Ok? ==> Inv(r.state, horizon)
  {
  }

  lemma RevokeGuardianKeepsInv(st: Contract, horizon: nat, env: Env, accountId: AccountId)
    requires Inv(st, horizon)
    ensures var r := RevokeGuardian(st, env, accountId); r.Ok? ==> Inv(r.state, horizon)
  {
    var r := RevokeGuardian(st, env, accountId);
    if r.Ok? && accountId in st.guardians {
      forall id | id in r.state.proposals.entries
        ensures |r.state.proposals.entries[id].votes| < APPROVAL_THRESHOLD
      {
        assert r.state.proposals.entries[id].votes <= st.proposals.entries[id].votes;
      }
      IdsIssuedMonotone(st, horizon, r.state, horizon);
    }
  }

  lemma ProposeKeepsInv(st: Contract, horizon: nat, env: Env, proposal: ProposalInfo)
    requires Inv(st, horizon) && horizon <= Seconds(env.blockTimestamp)
    requires proposal.votes == {} && NoDups(proposal.projectInfo.contractIds)
    ensures var r := Propose(st, env, proposal);
            && r.Ok?
            && Inv(r.state, Seconds(env.blockTimestamp))
  {
    var r := Propose(st, env, proposal);
    NextIdIsFresh(st, horizon, env.blockTimestamp);
    var proposalId := r.value.value;
    NextIdIssued(st.runningId, env.blockTimestamp);
    forall id | id in r.state.proposals.entries ensures Issued(id, Seconds(env.blockTimestamp), r.state.runningId) {
      if id != proposalId {
        IssuedMonotone(id, horizon, st.runningId, Seconds(env.blockTimestamp), r.state.runningId);
      }
    }
    forall id | id in r.state.approvedProjects.entries ensures Issued(id, Seconds(env.blockTimestamp), r.state.runningId) {
      IssuedMonotone(id, horizon, st.runningId, Seconds(env.blockTimestamp), r.state.runningId);
    }
  }

  /** With block times that never go backwards, a 1 NEAR `add_project` never hits an id collision. */
  lemma AddProjectKeepsInv(
    st: Contract, horizon: nat, env: Env, contractIds: seq<AccountId>,
    twitterUrl: Option<string>, auditReportUrl: Option<string>, telegramUsername: Option<string>,
    description: Option<string>, websiteUrl: Option<string>)
    requires Inv(st, horizon) && horizon <= Seconds(env.blockTimestamp)
    ensures var r := AddProject(st, env, contractIds, twitterUrl, auditReportUrl, telegramUsername, description, websiteUrl);
            && (r.Ok? <==> env.attachedDeposit == ONE_NEAR)
            && (r.Ok? ==> Inv(r.state, Seconds(env.blockTimestamp)))
  {
    if env.attachedDeposit == ONE_NEAR {
      var info := ProjectInfo(ContractIdSet(contractIds), twitterUrl, auditReportUrl, telegramUsername, description, websiteUrl);
      ProposeKeepsInv(st, horizon, env, ProposalOf(info, New, None, env.predecessor));
    }
  }

  /** Likewise `update_project` fails only for a wrong deposit or an unknown project. */
  lemma UpdateProjectKeepsInv(
    st: Contract, horizon: nat, env: Env, projectId: ProjectId, contractIds: seq<AccountId>,
    twitterUrl: Option<string>, auditReportUrl: Option<string>, telegramUsername: Option<string>,
    description: Option<string>, websiteUrl: Option<string>)
    requires Inv(st, horizon) && horizon <= Seconds(env.blockTimestamp)
    ensures var r := UpdateProject(st, env, projectId, contractIds, twitterUrl, auditReportUrl, telegramUsername, description, websiteUrl);
            && (r.Ok? <==> env.attachedDeposit == ONE_NEAR && projectId in st.approvedProjects.entries)
            && (r.Ok? ==> Inv(r.state, Seconds(env.blockTimestamp)))
  {
    if env.attachedDeposit == ONE_NEAR && projectId in st.approvedProjects.entries {
      var info := ProjectInfo(ContractIdSet(contractIds), twitterUrl, auditReportUrl, telegramUsername, description, websiteUrl);
      ProposeKeepsInv(st, horizon, env, ProposalOf(info, Update, Some(projectId), env.predecessor));
    }
  }

  lemma VoteProposalKeepsInv(st: Contract, horizon: nat, env: Env, proposalId: ProposalId)
    requires Inv(st, horizon) && horizon <= Seconds(env.blockTimestamp)
    ensures var r := VoteProposal(st, env, proposalId); r.Ok? ==> Inv(r.state, Seconds(env.blockTimestamp))
  {
    var r := VoteProposal(st, env, proposalId);
    if r.Ok? {
      var p := st.proposals.entries[proposalId];
      var voted := p.(votes := p.votes + {env.predecessor});
      if APPROVAL_THRESHOLD <= |voted.votes| {
        ApproveKeepsInv(st, horizon, voted, env.blockTimestamp);
        var approved := Approve(st, voted, env.blockTimestamp);
        IdsIssuedMonotone(approved, Seconds(env.blockTimestamp), r.state, Seconds(env.blockTimestamp));
      } else {
        IdsIssuedMonotone(st, horizon, r.state, Seconds(env.blockTimestamp));
      }
    }
  }

  lemma WithdrawVoteKeepsInv(st: Contract, horizon: nat, env: Env, proposalId: ProposalId)
    requires Inv(st, horizon)
    ensures var r := WithdrawVoteOnProposal(st, env, proposalId); r.Ok? ==> Inv(r.state, horizon)
  {
    var r := WithdrawVoteOnProposal(st, env, proposalId);
    if r.Ok? {
      IdsIssuedMonotone(st, horizon, r.state, horizon);
    }
  }
}

=== FILE: iterable_map.dfy ===
/**
 * The storage map `IterableMap` of the NEAR SDK, as seen by the contract: a finite map
 * together with the order in which its entries are iterated.  Inserting a new key appends
 * it to the order; inserting an existing key replaces the value in place; removing a key
 * moves the last key into its place.
 */
module IterableMaps {
  import opened Wrappers
  import opened Seqs

  datatype IterMap<K, V> = IterMap(keys: seq<K>, entries: map<K, V>)

  function Empty<K, V>(): IterMap<K, V> {
    IterMap([], map[])
  }

  /** The iteration order lists every key of the map exactly once. */
  ghost predicate Valid<K, V>(m: IterMap<K, V>) {
    && NoDups(m.keys)
    && (forall k :: k in m.keys ==> k in m.entries)
    && (forall k :: k in m.entries ==> k in m.keys)
  }

  function Get<K(==), V>(m: IterMap<K, V>, k: K): (r: Option<V>)
    ensures r.Some? <==> k in m.entries
    ensures r.Some? ==> r.value == m.entries[k]
  {
    if k in m.entries then Some(m.entries[k]) else None
  }

  function Insert<K(==), V>(m: IterMap<K, V>, k: K, v: V): (r: IterMap<K, V>)
    ensures r.entries == m.entries[k := v]
    ensures k in m.entries ==> r.keys == m.keys
    ensures k !in m.entries ==> r.keys == m.keys + [k]
    ensures Valid(m) ==> Valid(r)
  {
    if k in m.entries then IterMap(m.keys, m.entries[k := v])
    else IterMap(m.keys + [k], m.entries[k := v])
  }

  /**
   * Removal swaps the last key into the removed key's place in the order, as the
   * library's `swap_remove` on its key vector does.
   */
  function Remove<K(==), V>(m: IterMap<K, V>, k: K): (r: IterMap<K, V>)
    ensures r.entries == m.entries - {k}
    ensures k !in m.entries ==> r == m
    ensures Valid(m) && k in m.entries ==>
              var i := IndexOf(m.keys, k);
              && |r.keys| == |m.keys| - 1
              && (forall j :: 0 <= j < |r.keys| && j != i ==> r.keys[j] == m.keys[j])
              && (i < |r.keys| ==> r.keys[i] == m.keys[|m.keys| - 1])
    ensures Valid(m) ==> Valid(r)
  {
    if k !in m.entries then m
    else if k in m.keys then
      var i := IndexOf(m.keys, k);
      SwapRemoveMembers(m.keys, i);
      IterMap(SwapRemove(m.keys, i), m.entries - {k})
    else IterMap(m.keys, m.entries - {k})
  }

  /** The entries in iteration order, as `iter()` yields them. */
  function Items<K(==), V>(m: IterMap<K, V>): (r: seq<(K, V)>)
    ensures forall i :: 0 <= i < |r| ==> r[i].0 in m.entries && m.entries[r[i].0] == r[i].1
    ensures Valid(m) ==> |r| == |m.keys|
    ensures Valid(m) ==> forall i :: 0 <= i < |r| ==> r[i].0 == m.keys[i]
  {
    ItemsOf(m.keys, m.entries)
  }

  function ItemsOf<K(==), V>(keys: seq<K>, entries: map<K, V>): (r: seq<(K, V)>)
    ensures forall i :: 0 <= i < |r| ==> r[i].0 in entries && entries[r[i].0] == r[i].1
    ensures (forall k :: k in keys ==> k in entries) ==>
              |r| == |keys| && forall i :: 0 <= i < |r| ==> r[i].0 == keys[i]
  {
    if keys == [] then []
    else
      var rest := ItemsOf(keys[1..], entries);
      if keys[0] in entries then [(keys[0], entries[keys[0]])] + rest else rest
  }
}

=== FILE: pagination.dfy ===
/**
 * The `iter().rev().skip(from_index as usize).take(limit as usize)` chain shared by the
 * contract's `list_projects`, `list_proposals` and `list_contracts` views.
 */
module Pagination {

  const I32_MIN: int := -0x8000_0000
  const I32_MAX: int := 0x7fff_ffff
  /** `usize` is 32 bits wide on the wasm32 target a NEAR contract is compiled for. */
  const USIZE_MODULUS: nat := 0x1_0000_0000

  predicate IsI32(x: int) {
    I32_MIN <= x <= I32_MAX
  }

  /** Rust's `x as usize` for an `i32` on wasm32: sign extension, then reinterpretation. */
  function AsUsize(x: int): (r: nat)
    requires IsI32(x)
    ensures r < USIZE_MODULUS
    ensures r % USIZE_MODULUS == x % USIZE_MODULUS
    ensures 0 <= x ==> r == x
    ensures x < 0 ==> I32_MAX < r
  {
    if 0 <= x then x else x + USIZE_MODULUS
  }

  function Reverse<T>(s: seq<T>): (r: seq<T>)
    ensures |r| == |s|
    ensures forall i :: 0 <= i < |s| ==> r[i] == s[|s| - 1 - i]
  {
    if s == [] then [] else Reverse(s[1..]) + [s[0]]
  }

  function Skip<T>(s: seq<T>, n: nat): seq<T> {
    if |s| <= n then [] else s[n..]
  }

  function Take<T>(s: seq<T>, n: nat): seq<T> {
    if |s| <= n then s else s[..n]
  }

  /**
   * A page holds `limit` elements, or what is left after `fromIndex`, counting from
   * the END of the iteration order.
   */
  function Page<T>(s: seq<T>, fromIndex: nat, limit: nat): (r: seq<T>)
    ensures |r| == if |s| <= fromIndex then 0 else Min(limit, |s| - fromIndex)
    ensures forall i :: 0 <= i < |r| ==> r[i] == s[|s| - 1 - (fromIndex + i)]
  {
    Take(Skip(Reverse(s), fromIndex), limit)
  }

  function Min(a: int, b: int): int {
    if a <= b then a else b
  }

  /** Consecutive pages are disjoint and, laid end to end, form one larger page. */
  lemma PagesConcatenate<T>(s: seq<T>, fromIndex: nat, n: nat, m: nat)
    ensures Page(s, fromIndex, n) + Page(s, fromIndex + n, m) == Page(s, fromIndex, n + m)
  {
  }

  /** A page starting at 0 that is large enough returns everything, last stored first. */
  lemma FullPage<T>(s: seq<T>, limit: nat)
    requires |s| <= limit
    ensures Page(s, 0, limit) == Reverse(s)
  {
  }

  /** A negative `from_index` skips past the end of any collection of at most `i32::MAX` entries. */
  lemma NegativeFromIndexIsEmpty<T>(s: seq<T>, fromIndex: int, limit: int)
    requires IsI32(fromIndex) && IsI32(limit)
    requires fromIndex < 0 && |s| <= I32_MAX
    ensures Page(s, AsUsize(fromIndex), AsUsize(limit)) == []
  {
  }

  /** A negative `limit` takes everything after `from_index`. */
  lemma NegativeLimitTakesRest<T>(s: seq<T>, fromIndex: nat, limit: int)
    requires IsI32(limit) && limit < 0 && |s| <= I32_MAX
    ensures Page(s, fromIndex, AsUsize(limit)) == Skip(Reverse(s), fromIndex)
  {
    assert |Skip(Reverse(s), fromIndex)| <= |s| < AsUsize(limit);
  }
}

=== FILE: properties.dfy ===
/** Properties relating several calls of the contract's methods. */
module Properties {
  import opened Wrappers
  import Seqs
  import opened IterableMaps
  import opened Pagination
  import opened ContractCounts
  import opened Whitelist
  import opened Invariants

  /** Voting again on a proposal one already voted for changes nothing. */
  lemma RepeatVoteChangesNothing(st: Contract, horizon: nat, env: Env, proposalId: ProposalId)
    requires Inv(st, horizon)
    requires env.predecessor in st.guardians && proposalId in st.proposals.entries
    requires env.predecessor in st.proposals.entries[proposalId].votes
    ensures VoteProposal(st, env, proposalId) == Ok(st, true, [])
  {
    var p := st.proposals.entries[proposalId];
    assert p.votes + {env.predecessor} == p.votes;
    assert p.(votes := p.votes) == p;
    assert st.proposals.entries[proposalId := p] == st.proposals.entries;
  }

  /** Withdrawing a vote that did not approve the proposal undoes it. */
  lemma VoteThenWithdrawRestores(st: Contract, env: Env, proposalId: ProposalId)
    requires env.predecessor in st.guardians && proposalId in st.proposals.entries
    requires env.predecessor !in st.proposals.entries[proposalId].votes
    requires |st.proposals.entries[proposalId].votes| + 1 < APPROVAL_THRESHOLD
    ensures VoteProposal(st, env, proposalId).Ok?
    ensures WithdrawVoteOnProposal(VoteProposal(st, env, proposalId).state, env, proposalId) == Ok(st, true, [])
  {
    var p := st.proposals.entries[proposalId];
    var votes := p.votes + {env.predecessor};
    assert |votes| == |p.votes| + 1;
    assert votes - {env.predecessor} == p.votes;
    var voted := VoteProposal(st, env, proposalId).state;
    assert voted.proposals.entries[proposalId := p] == st.proposals.entries;
  }

  /**
   * In a state keeping the invariant, a successful vote applies the proposal exactly when
   * it brings a third, new voter to a proposal that had two.
   */
  lemma ApprovedIffThirdNewVoter(st: Contract, horizon: nat, env: Env, proposalId: ProposalId)
    requires Inv(st, horizon)
    requires VoteProposal(st, env, proposalId).Ok?
    ensures var p := st.proposals.entries[proposalId];
            var r := VoteProposal(st, env, proposalId);
            && (proposalId !in r.state.proposals.entries <==> env.predecessor !in p.votes && |p.votes| == 2)
            && (proposalId !in r.state.proposals.entries <==> r.transfers == [Transfer(p.proposedBy, ONE_NEAR)])
  {
    var p := st.proposals.entries[proposalId];
    if env.predecessor in p.votes {
      assert p.votes + {env.predecessor} == p.votes;
    } else {
      assert |p.votes + {env.predecessor}| == |p.votes| + 1;
    }
  }

  /** An approved NEW proposal stores its project under a fresh id and whitelists all its accounts. */
  lemma NewApprovalWhitelists(st: Contract, horizon: nat, env: Env, proposalId: ProposalId)
    requires IdsIssued(st, horizon) && horizon <= Seconds(env.blockTimestamp)
    requires env.predecessor in st.guardians && proposalId in st.proposals.entries
    requires st.proposals.entries[proposalId].kind == New
    requires env.predecessor !in st.proposals.entries[proposalId].votes
    requires |st.proposals.entries[proposalId].votes| == 2
    ensures var info := st.proposals.entries[proposalId].projectInfo;
            var projectId := IdOf(Seconds(env.blockTimestamp), st.runningId + 1);
            var r := VoteProposal(st, env, proposalId);
            && r.Ok?
            && projectId !in st.approvedProjects.entries
            && GetProjectById(r.state, projectId) == Some(info)
            && forall c :: c in info.contractIds ==> CheckContractWhitelisted(r.state, c)
  {
    var p := st.proposals.entries[proposalId];
    var voted := p.(votes := p.votes + {env.predecessor});
    assert |voted.votes| == 3;
    NextIdIsFresh(st, horizon, env.blockTimestamp);
    var approved := Approve(st, voted, env.blockTimestamp);
    var r := VoteProposal(st, env, proposalId);
    forall c | c in p.projectInfo.contractIds ensures CheckContractWhitelisted(r.state, c) {
      assert c in multiset(p.projectInfo.contractIds);
      assert 1 <= CountOf(approved.approvedContracts, c);
    }
  }

  /**
   * An approved UPDATE stops whitelisting an account that only the replaced version of the
   * project listed.
   */
  lemma UpdateApprovalDelists(st: Contract, horizon: nat, env: Env, proposalId: ProposalId, c: AccountId)
    requires Inv(st, horizon) && horizon <= Seconds(env.blockTimestamp)
    requires env.predecessor in st.guardians && proposalId in st.proposals.entries
    requires var p := st.proposals.entries[proposalId];
             && p.kind == Update && p.projectId.Some? && p.projectId.value in st.approvedProjects.entries
             && env.predecessor !in p.votes && |p.votes| == 2
             && c !in p.projectInfo.contractIds
    requires forall id :: id in st.approvedProjects.entries && c in st.approvedProjects.entries[id].contractIds ==>
               id == st.proposals.entries[proposalId].projectId.value
    ensures VoteProposal(st, env, proposalId).Ok?
    ensures !CheckContractWhitelisted(VoteProposal(st, env, proposalId).state, c)
  {
    var p := st.proposals.entries[proposalId];
    assert |p.votes + {env.predecessor}| == 3;
    var r := VoteProposal(st, env, proposalId);
    VoteProposalKeepsInv(st, horizon, env, proposalId);
    WhitelistedIffListed(r.state, Seconds(env.blockTimestamp), c);
  }

  /** Adding a new guardian and revoking it again restores the state. */
  lemma AddThenRevokeRestores(st: Contract, horizon: nat, env: Env, accountId: AccountId)
    requires Inv(st, horizon)
    requires env.predecessor == env.currentAccount && accountId !in st.guardians
    ensures AddGuardian(st, env, accountId).Ok?
    ensures RevokeGuardian(AddGuardian(st, env, accountId).state, env, accountId) == Ok(st, (), [])
  {
    var added := AddGuardian(st, env, accountId).state;
    var stripped := StripVotes(added.proposals, accountId);
    forall id | id in stripped.entries ensures stripped.entries[id] == st.proposals.entries[id] {
      assert accountId !in st.proposals.entries[id].votes;
      assert st.proposals.entries[id].votes - {accountId} == st.proposals.entries[id].votes;
    }
    assert stripped.entries == st.proposals.entries;
    assert added.guardians - {accountId} == st.guardians;
  }

  /** `list_guardians` shows an added guardian, stops showing a revoked one, and shows no other change. */
  lemma GuardiansListed(st: Contract, env: Env, accountId: AccountId, other: AccountId)
    requires env.predecessor == env.currentAccount && other != accountId
    ensures accountId in ListGuardians(AddGuardian(st, env, accountId).state)
    ensures accountId !in ListGuardians(RevokeGuardian(st, env, accountId).state)
    ensures other in ListGuardians(AddGuardian(st, env, accountId).state) <==> other in ListGuardians(st)
    ensures other in ListGuardians(RevokeGuardian(st, env, accountId).state) <==> other in ListGuardians(st)
  {
  }

  /** With no removal in between, the proposal just filed heads `list_proposals`. */
  lemma NewProposalListedFirst(
    st: Contract, horizon: nat, env: Env, contractIds: seq<AccountId>,
    twitterUrl: Option<string>, auditReportUrl: Option<string>, telegramUsername: Option<string>,
    description: Option<string>, websiteUrl: Option<string>)
    requires Inv(st, horizon)
    requires AddProject(st, env, contractIds, twitterUrl, auditReportUrl, telegramUsername, description, websiteUrl).Ok?
    ensures var r := AddProject(st, env, contractIds, twitterUrl, auditReportUrl, telegramUsername, description, websiteUrl);
            var id := r.value.value;
            ListProposals(r.state, 0, 1) == [(id, r.state.proposals.entries[id])]
  {
    var r := AddProject(st, env, contractIds, twitterUrl, auditReportUrl, telegramUsername, description, websiteUrl);
    assert r.state.proposals == Insert(st.proposals, r.value.value, r.state.proposals.entries[r.value.value]);
    var page := ListProposals(r.state, 0, 1);
    assert |page| == 1 && page[0].0 == r.value.value;
  }

  /**
   * Removing the oldest of three entries moves the newest into its place, so a listing then
   * shows the middle entry first: proposals A, B, C with A approved list as B, C.
   */
  lemma RemovalMovesLastKey<V>(m: IterMap<ProposalId, V>, a: ProposalId, b: ProposalId, c: ProposalId)
    requires Valid(m) && m.keys == [a, b, c]
    ensures var page := ListEntries(Remove(m, a), 0, 10);
            |page| == 2 && page[0].0 == b && page[1].0 == c
  {
    var r := Remove(m, a);
    assert Seqs.IndexOf(m.keys, a) == 0;
    assert r.keys == [c, b];
  }

  /** Paging through `list_projects` with a fixed page size visits the projects in reverse storage order, without gaps or repeats. */
  lemma ProjectPagesConcatenate(st: Contract, fromIndex: nat, n: nat, m: nat)
    requires fromIndex + n + m <= I32_MAX
    ensures ListProjects(st, fromIndex, n) + ListProjects(st, fromIndex + n, m) == ListProjects(st, fromIndex, n + m)
  {
    PagesConcatenate(Items(st.approvedProjects), fromIndex, n, m);
  }
}

=== FILE: runs.dfy ===
/**
 * The contract as a sequential state machine: a run is a list of transactions, each a call
 * of one public method in its environment.  A transaction that panics is reverted.
 */
module Runs {
  import opened Wrappers
  import opened ContractCounts
  import opened Whitelist
  import opened Invariants

  datatype Call =
    | AddGuardianCall(accountId: AccountId)
    | RevokeGuardianCall(accountId: AccountId)
    | AddProjectCall(
        contractIds: seq<AccountId>, twitterUrl: Option<string>, auditReportUrl: Option<string>,
        telegramUsername: Option<string>, description: Option<string>, websiteUrl: Option<string>)
    | UpdateProjectCall(
        projectId: ProjectId, contractIds: seq<AccountId>, twitterUrl: Option<string>, auditReportUrl: Option<string>,
        telegramUsername: Option<string>, description: Option<string>, websiteUrl: Option<string>)
    | VoteCall(proposalId: ProposalId)
    | WithdrawVoteCall(proposalId: ProposalId)

  datatype Transaction = Transaction(env: Env, call: Call)

  /** The state after one transaction: the method's new state, or the old one when it panics. */
  function Execute(st: Contract, tx: Transaction): Contract {
    var env := tx.env;
    match tx.call
    case AddGuardianCall(a) =>
      var r := AddGuardian(st, env, a); if r.Ok? then r.state else st
    case RevokeGuardianCall(a) =>
      var r := RevokeGuardian(st, env, a); if r.Ok? then r.state else st
    case AddProjectCall(ids, tw, au, tg, de, we) =>
      var r := AddProject(st, env, ids, tw, au, tg, de, we); if r.Ok? then r.state else st
    case UpdateProjectCall(pid, ids, tw, au, tg, de, we) =>
      var r := UpdateProject(st, env, pid, ids, tw, au, tg, de, we); if r.Ok? then r.state else st
    case VoteCall(id) =>
      var r := VoteProposal(st, env, id); if r.Ok? then r.state else st
    case WithdrawVoteCall(id) =>
      var r := WithdrawVoteOnProposal(st, env, id); if r.Ok? then r.state else st
  }

  function Run(st: Contract, txs: seq<Transaction>): Contract
    decreases |txs|
  {
    if txs == [] then st else Run(Execute(st, txs[0]), txs[1..])
  }

  /** Block times of the transactions never go backwards and never precede `horizon` seconds. */
  predicate Chronological(horizon: nat, txs: seq<Transaction>) {
    && (forall i :: 0 <= i < |txs| ==> horizon <= Seconds(txs[i].env.blockTimestamp))
    && (forall i, j :: 0 <= i < j < |txs| ==> txs[i].env.blockTimestamp <= txs[j].env.blockTimestamp)
  }

  function LastSecond(horizon: nat, txs: seq<Transaction>): nat {
    if txs == [] then horizon else Seconds(txs[|txs| - 1].env.blockTimestamp)
  }

  lemma SecondsMonotone(a: nat, b: nat)
    requires a <= b
    ensures Seconds(a) <= Seconds(b)
  {
    var qa, qb := a / NANOS_PER_SECOND, b / NANOS_PER_SECOND;
    assert qa * NANOS_PER_SECOND <= a <= b < (qb + 1) * NANOS_PER_SECOND;
  }

  lemma ExecuteKeepsInv(st: Contract, horizon: nat, tx: Transaction)
    requires Inv(st, horizon) && horizon <= Seconds(tx.env.blockTimestamp)
    ensures Inv(Execute(st, tx), Seconds(tx.env.blockTimestamp))
  {
    var env := tx.env;
    var later := Seconds(env.blockTimestamp);
    InvLaterHorizon(st, horizon, later);
    match tx.call
    case AddGuardianCall(a) => AddGuardianKeepsInv(st, later, env, a);
    case RevokeGuardianCall(a) => RevokeGuardianKeepsInv(st, later, env, a);
    case AddProjectCall(ids, tw, au, tg, de, we) =>
      AddProjectKeepsInv(st, horizon, env, ids, tw, au, tg, de, we);
    case UpdateProjectCall(pid, ids, tw, au, tg, de, we) =>
      UpdateProjectKeepsInv(st, horizon, env, pid, ids, tw, au, tg, de, we);
    case VoteCall(id) => VoteProposalKeepsInv(st, horizon, env, id);
    case WithdrawVoteCall(id) => WithdrawVoteKeepsInv(st, later, env, id);
  }

  /** Every chronological run keeps the invariant. */
  lemma {:induction false} RunKeepsInv(st: Contract, horizon: nat, txs: seq<Transaction>)
    requires Inv(st, horizon) && Chronological(horizon, txs)
    ensures Inv(Run(st, txs), LastSecond(horizon, txs))
    decreases |txs|
  {
    if txs != [] {
      var next := Seconds(txs[0].env.blockTimestamp);
      ExecuteKeepsInv(st, horizon, txs[0]);
      var rest := txs[1..];
      forall i | 0 <= i < |rest| ensures next <= Seconds(rest[i].env.blockTimestamp) {
        SecondsMonotone(txs[0].env.blockTimestamp, rest[i].env.blockTimestamp);
      }
      assert Chronological(next, rest);
      RunKeepsInv(Execute(st, txs[0]), next, rest);
    }
  }

  /**
   * In every state reachable from deployment by chronological transactions: no proposal
   * waits with three votes or with a vote from a non-guardian, an account is whitelisted
   * exactly when an approved project lists it, and filing a proposal with 1 NEAR succeeds.
   */
  lemma ReachableStates(
    txs: seq<Transaction>, c: AccountId, env: Env, contractIds: seq<AccountId>,
    twitterUrl: Option<string>, auditReportUrl: Option<string>, telegramUsername: Option<string>,
    description: Option<string>, websiteUrl: Option<string>)
    requires Chronological(0, txs)
    requires LastSecond(0, txs) <= Seconds(env.blockTimestamp) && env.attachedDeposit == ONE_NEAR
    ensures var st := Run(Init(), txs);
            && (forall id :: id in st.proposals.entries ==>
                  |st.proposals.entries[id].votes| < APPROVAL_THRESHOLD && st.proposals.entries[id].votes <= st.guardians)
            && (CheckContractWhitelisted(st, c) <==>
                  exists id :: id in st.approvedProjects.entries && c in st.approvedProjects.entries[id].contractIds)
            && AddProject(st, env, contractIds, twitterUrl, auditReportUrl, telegramUsername, description, websiteUrl).Ok?
  {
    InitInv();
    RunKeepsInv(Init(), 0, txs);
    var st := Run(Init(), txs);
    WhitelistedIffListed(st, LastSecond(0, txs), c);
    AddProjectKeepsInv(st, LastSecond(0, txs), env, contractIds, twitterUrl, auditReportUrl, telegramUsername, description, websiteUrl);
  }
}

=== FILE: scenario.dfy ===
/**
 * The end-to-end scenario of contract/tests/test_basics.rs, restated over the model: a
 * proposal is filed, ignored while its voters are not guardians, approved once they are,
 * and an update that drops the contract account de-whitelists it.  Block times are left
 * arbitrary.  The contract accounts "aa-harvest-moon.near" and "nothere.near" are the
 * test's own; the contract, guardian and proposer names stand in for the sandbox accounts
 * the test creates.
 */
module Scenario {
  import opened Wrappers
  import opened IterableMaps
  import opened ContractCounts
  import opened Whitelist

  const CONTRACT: AccountId := "whitelist.test.near"
  const GUARDIAN_1: AccountId := "guardian-1.test.near"
  const GUARDIAN_2: AccountId := "guardian-2.test.near"
  const GUARDIAN_3: AccountId := "guardian-3.test.near"
  const RANDO: AccountId := "rando.test.near"
  const HARVEST_MOON: AccountId := "aa-harvest-moon.near"
  const NOT_HERE: AccountId := "nothere.near"

  function At(caller: AccountId, deposit: nat, blockTimestamp: nat): Env {
    Env(caller, CONTRACT, deposit, blockTimestamp)
  }

  /** RANDO files a NEW proposal listing "aa-harvest-moon.near" with `deposit` attached. */
  function FileHarvestMoon(st: Contract, deposit: nat, t: nat): Outcome<Option<ProposalId>> {
    AddProject(st, At(RANDO, deposit, t), [HARVEST_MOON], None, None, None, None, None)
  }

  /** Three guardians vote, in order, on one proposal; the state after each successful vote. */
  function VoteThrice(st: Contract, proposalId: ProposalId, t: nat): (r: Outcome<bool>)
    requires {GUARDIAN_1, GUARDIAN_2, GUARDIAN_3} <= st.guardians
    requires proposalId in st.proposals.entries && st.proposals.entries[proposalId].votes == {}
    ensures r.Ok?
    ensures r.transfers == [Transfer(st.proposals.entries[proposalId].proposedBy, ONE_NEAR)]
    ensures r.state == Approve(st, st.proposals.entries[proposalId].(votes := {GUARDIAN_1, GUARDIAN_2, GUARDIAN_3}), t)
                         .(proposals := Remove(st.proposals, proposalId))
  {
    var p := st.proposals.entries[proposalId];
    var r1 := VoteProposal(st, At(GUARDIAN_1, 0, t), proposalId);
    assert {} + {GUARDIAN_1} == {GUARDIAN_1};
    var r2 := VoteProposal(r1.state, At(GUARDIAN_2, 0, t), proposalId);
    assert {GUARDIAN_1} + {GUARDIAN_2} == {GUARDIAN_1, GUARDIAN_2};
    var r3 := VoteProposal(r2.state, At(GUARDIAN_3, 0, t), proposalId);
    assert |{GUARDIAN_1, GUARDIAN_2, GUARDIAN_3}| == 3;
    assert r2.state.proposals.entries[proposalId] == p.(votes := {GUARDIAN_1, GUARDIAN_2});
    assert r2.state.(proposals := st.proposals) == st;
    r3
  }

  /** Filing the proposal: refused without deposit and with 5 NEAR, accepted with 1 NEAR, not yet whitelisting. */
  lemma ProposalPhase(t: nat)
    ensures !CheckContractWhitelisted(Init(), HARVEST_MOON)
    ensures FileHarvestMoon(Init(), 0, t) == Panic(DepositRequired)
    ensures FileHarvestMoon(Init(), 5 * ONE_NEAR, t) == Panic(DepositRequired)
    ensures var r := FileHarvestMoon(Init(), ONE_NEAR, t);
            && r.Ok?
            && r.value == Some(IdOf(Seconds(t), 1))
            && r.state.runningId == 1
            && r.state.proposals == IterMap([IdOf(Seconds(t), 1)], map[IdOf(Seconds(t), 1) := ProposalInfo(
                 ProjectInfo([HARVEST_MOON], None, None, None, None, None), New, None, {}, RANDO)])
            && !CheckContractWhitelisted(r.state, HARVEST_MOON)
  {
    assert Seqs.Dedup([HARVEST_MOON]) == [HARVEST_MOON];
  }

  /** Votes from accounts that are not guardians yet are refused. */
  lemma EarlyVotesRefused(st: Contract, proposalId: ProposalId, t: nat)
    requires st.guardians == {}
    ensures VoteProposal(st, At(GUARDIAN_1, 0, t), proposalId) == Panic(NotGuardian)
    ensures VoteProposal(st, At(GUARDIAN_2, 0, t), proposalId) == Panic(NotGuardian)
    ensures VoteProposal(st, At(GUARDIAN_3, 0, t), proposalId) == Panic(NotGuardian)
  {
  }

  function Guardians(st: Contract): Contract
    requires AddGuardian(st, At(CONTRACT, 0, 0), GUARDIAN_1).Ok?
  {
    var r1 := AddGuardian(st, At(CONTRACT, 0, 0), GUARDIAN_1).state;
    var r2 := AddGuardian(r1, At(CONTRACT, 0, 0), GUARDIAN_2).state;
    AddGuardian(r2, At(CONTRACT, 0, 0), GUARDIAN_3).state
  }

  /** After filing at `t1` and adding the guardians, the three guardians approve at `t2`. */
  lemma ApprovalPhase(t1: nat, t2: nat)
    ensures var filed := FileHarvestMoon(Init(), ONE_NEAR, t1);
            var proposalId := IdOf(Seconds(t1), 1);
            && filed.Ok?
            && AddGuardian(filed.state, At(CONTRACT, 0, 0), GUARDIAN_1).Ok?
            && var st := Guardians(filed.state);
               && {GUARDIAN_1, GUARDIAN_2, GUARDIAN_3} <= st.guardians
               && proposalId in st.proposals.entries && st.proposals.entries[proposalId].votes == {}
               && var approved := VoteThrice(st, proposalId, t2);
                  var projectId := IdOf(Seconds(t2), 2);
                  && approved.transfers == [Transfer(RANDO, ONE_NEAR)]
                  && approved.state.guardians == {GUARDIAN_1, GUARDIAN_2, GUARDIAN_3}
                  && approved.state.runningId == 2
                  && approved.state.proposals.entries == map[]
                  && approved.state.approvedProjects == IterMap([projectId], map[projectId := ProjectInfo([HARVEST_MOON], None, None, None, None, None)])
                  && CountOf(approved.state.approvedContracts, HARVEST_MOON) == 1
                  && Positive(approved.state.approvedContracts)
                  && CheckContractWhitelisted(approved.state, HARVEST_MOON)
  {
    ProposalPhase(t1);
    var filed := FileHarvestMoon(Init(), ONE_NEAR, t1);
    var st := Guardians(filed.state);
    assert st.proposals == filed.state.proposals;
    assert st.guardians == {GUARDIAN_1, GUARDIAN_2, GUARDIAN_3};
    assert multiset([HARVEST_MOON])[HARVEST_MOON] == 1;
  }

  /** Filing the update of the one project. */
  lemma UpdateFiling(st: Contract, projectId: ProjectId, t3: nat)
    requires st.runningId == 2 && st.proposals.entries == map[]
    requires projectId in st.approvedProjects.entries
    ensures var update := UpdateProject(st, At(RANDO, ONE_NEAR, t3), projectId, [NOT_HERE], None, None, None, None, None);
            var updateId := IdOf(Seconds(t3), 3);
            && update.Ok? && update.value == Some(updateId)
            && update.state.guardians == st.guardians
            && update.state.approvedProjects == st.approvedProjects
            && update.state.approvedContracts == st.approvedContracts
            && update.state.proposals.entries == map[updateId := ProposalInfo(
                 ProjectInfo([NOT_HERE], None, None, None, None, None), Update, Some(projectId), {}, RANDO)]
  {
    assert Seqs.Dedup([NOT_HERE]) == [NOT_HERE];
  }

  /** Approving the update moves the whitelisting from "aa-harvest-moon.near" to "nothere.near". */
  lemma UpdateApproval(st: Contract, updateId: ProposalId, projectId: ProjectId, t3: nat)
    requires {GUARDIAN_1, GUARDIAN_2, GUARDIAN_3} <= st.guardians
    requires st.approvedProjects.entries == map[projectId := ProjectInfo([HARVEST_MOON], None, None, None, None, None)]
    requires CountOf(st.approvedContracts, HARVEST_MOON) == 1 && Positive(st.approvedContracts)
    requires st.proposals.entries == map[updateId := ProposalInfo(
               ProjectInfo([NOT_HERE], None, None, None, None, None), Update, Some(projectId), {}, RANDO)]
    ensures !CheckContractWhitelisted(VoteThrice(st, updateId, t3).state, HARVEST_MOON)
    ensures CheckContractWhitelisted(VoteThrice(st, updateId, t3).state, NOT_HERE)
  {
    var updated := VoteThrice(st, updateId, t3);
    assert multiset([NOT_HERE])[HARVEST_MOON] == 0;
    assert multiset([HARVEST_MOON])[HARVEST_MOON] == 1;
    assert multiset([NOT_HERE])[NOT_HERE] == 1;
    assert CountOf(updated.state.approvedContracts, HARVEST_MOON) == 0;
    assert CountOf(updated.state.approvedContracts, NOT_HERE) >= 1;
  }

  /**
   * The whole test: nothing is whitelisted before approval and votes of accounts that are not
   * guardians yet are refused; after the guardians approve the proposal the account is whitelisted and
   * the proposer refunded; `list_projects(0, 20)` shows the one project; after the guardians
   * approve an update of it listing only "nothere.near", the account is no longer whitelisted.
   */
  lemma TestContractIsOperational(t1: nat, t2: nat, t3: nat)
    ensures !CheckContractWhitelisted(Init(), HARVEST_MOON)
    ensures var filed := FileHarvestMoon(Init(), ONE_NEAR, t1);
            && filed.Ok?
            && !CheckContractWhitelisted(filed.state, HARVEST_MOON)
            && VoteProposal(filed.state, At(GUARDIAN_1, 0, t1), IdOf(Seconds(t1), 1)) == Panic(NotGuardian)
            && VoteProposal(filed.state, At(GUARDIAN_2, 0, t1), IdOf(Seconds(t1), 1)) == Panic(NotGuardian)
            && VoteProposal(filed.state, At(GUARDIAN_3, 0, t1), IdOf(Seconds(t1), 1)) == Panic(NotGuardian)
            && AddGuardian(filed.state, At(CONTRACT, 0, 0), GUARDIAN_1).Ok?
            && var st := Guardians(filed.state);
               var proposalId := IdOf(Seconds(t1), 1);
               && {GUARDIAN_1, GUARDIAN_2, GUARDIAN_3} <= st.guardians
               && proposalId in st.proposals.entries && st.proposals.entries[proposalId].votes == {}
               && var approved := VoteThrice(st, proposalId, t2);
                  var projects := ListProjects(approved.state, 0, 20);
                  && approved.transfers == [Transfer(RANDO, ONE_NEAR)]
                  && CheckContractWhitelisted(approved.state, HARVEST_MOON)
                  && |projects| == 1 && projects[0].0 == IdOf(Seconds(t2), 2)
                  && var update := UpdateProject(approved.state, At(RANDO, ONE_NEAR, t3), projects[0].0, [NOT_HERE], None, None, None, None, None);
                     var updateId := IdOf(Seconds(t3), 3);
                     && update.Ok? && update.value == Some(updateId)
                     && {GUARDIAN_1, GUARDIAN_2, GUARDIAN_3} <= update.state.guardians
                     && updateId in update.state.proposals.entries && update.state.proposals.entries[updateId].votes == {}
                     && !CheckContractWhitelisted(VoteThrice(update.state, updateId, t3).state, HARVEST_MOON)
  {
    ApprovalPhase(t1, t2);
    var filed := FileHarvestMoon(Init(), ONE_NEAR, t1);
    EarlyVotesRefused(filed.state, IdOf(Seconds(t1), 1), t1);
    var approved := VoteThrice(Guardians(filed.state), IdOf(Seconds(t1), 1), t2);
    var projectId := IdOf(Seconds(t2), 2);
    assert Valid(approved.state.approvedProjects);
    var projects := ListProjects(approved.state, 0, 20);
    assert |projects| == 1 && projects[0].0 == projectId;
    UpdateFiling(approved.state, projectId, t3);
    var update := UpdateProject(approved.state, At(RANDO, ONE_NEAR, t3), projectId, [NOT_HERE], None, None, None, None, None);
    UpdateApproval(update.state, IdOf(Seconds(t3), 3), projectId, t3);
  }
}

=== FILE: seqs.dfy ===
/** Small facts about sequences used throughout the model. */
module Seqs {

  /** No element occurs twice (the shape of a Rust `HashSet` or of an iteration order). */
  predicate NoDups<T(==)>(s: seq<T>) {
    forall i, j :: 0 <= i < j < |s| ==> s[i] != s[j]
  }

  /** The position of `x` in `s`: its first occurrence. */
  function IndexOf<T(==)>(s: seq<T>, x: T): (i: nat)
    requires x in s
    ensures i < |s| && s[i] == x
    ensures forall j :: 0 <= j < i ==> s[j] != x
  {
    if s[0] == x then 0 else 1 + IndexOf(s[1..], x)
  }

  /** `Vec::swap_remove`: the last element takes the place of the one at `i`. */
  function SwapRemove<T>(s: seq<T>, i: nat): (r: seq<T>)
    requires i < |s|
    ensures |r| == |s| - 1
    ensures forall j :: 0 <= j < |r| && j != i ==> r[j] == s[j]
    ensures i < |r| ==> r[i] == s[|s| - 1]
  {
    if i == |s| - 1 then s[..i] else s[..i] + [s[|s| - 1]] + s[i + 1..|s| - 1]
  }

  /** Swap-removing from a duplicate-free sequence drops exactly the element at `i`. */
  lemma SwapRemoveMembers<T>(s: seq<T>, i: nat)
    requires i < |s|
    ensures NoDups(s) ==> NoDups(SwapRemove(s, i))
    ensures NoDups(s) ==> forall y :: y in SwapRemove(s, i) ==> y in s && y != s[i]
    ensures forall y :: y in s && y != s[i] ==> y in SwapRemove(s, i)
  {
    var r := SwapRemove(s, i);
    if NoDups(s) {
      forall a, b | 0 <= a < b < |r| ensures r[a] != r[b] {
        var pa, pb := if a == i then |s| - 1 else a, if b == i then |s| - 1 else b;
        assert r[a] == s[pa] && r[b] == s[pb] && pa != pb;
      }
      forall y | y in r ensures y in s && y != s[i] {
        var j :| 0 <= j < |r| && r[j] == y;
        var pj := if j == i then |s| - 1 else j;
        assert r[j] == s[pj] && pj != i;
      }
    }
    forall y | y in s && y != s[i] ensures y in r {
      var m :| 0 <= m < |s| && s[m] == y;
      if m < |s| - 1 {
        assert r[m] == y;
      } else {
        assert r[i] == y;
      }
    }
  }

  /** Splitting a duplicate-free sequence at its head. */
  lemma NoDupsTail<T>(x: T, t: seq<T>)
    requires NoDups([x] + t)
    ensures NoDups(t) && x !in t
  {
    var s := [x] + t;
    forall k | 0 <= k < |t| ensures t[k] != x {
      assert s[0] == x && s[k + 1] == t[k];
    }
    forall i, j | 0 <= i < j < |t| ensures t[i] != t[j] {
      assert s[i + 1] == t[i] && s[j + 1] == t[j];
    }
  }

  /** The distinct elements of `s`, each at its first occurrence. */
  function Dedup<T(==)>(s: seq<T>): (r: seq<T>)
    ensures NoDups(r)
    ensures forall y :: y in r ==> y in s
    ensures forall y :: y in s ==> y in r
  {
    if s == [] then []
    else
      var rest := Dedup(s[..|s| - 1]);
      assert s == s[..|s| - 1] + [s[|s| - 1]];
      if s[|s| - 1] in rest then rest else rest + [s[|s| - 1]]
  }

  /** A duplicate-free sequence holds each element at most once. */
  lemma {:induction false} NoDupsMultiplicity<T>(s: seq<T>, x: T)
    requires NoDups(s)
    ensures multiset(s)[x] == if x in s then 1 else 0
  {
    if s != [] {
      assert s == [s[0]] + s[1..];
      NoDupsTail(s[0], s[1..]);
      NoDupsMultiplicity(s[1..], x);
    }
  }
}

=== FILE: whitelist.dfy ===
/**
 * The whitelist governance contract.  Guardians vote on proposals to add (NEW) or change
 * (UPDATE) a project; a proposal that collects three guardian votes is applied and removed,
 * and a contract account is whitelisted while some approved project lists it.
 *
 * Each public method is a function from the contract state, the calling environment and the
 * method's arguments to an `Outcome`: `Panic` when the method panics (the NEAR runtime then
 * reverts every change, so the state is the one passed in), `Ok` with the new state, the
 * returned value and the tokens the call sends out.
 */
module Whitelist {
  import opened Wrappers
  import opened Seqs
  import opened Decimal
  import opened IterableMaps
  import opened Pagination
  import opened ContractCounts

  type ProposalId = string
  type ProjectId = string

  /** `NearToken::from_near(1)`, in yoctoNEAR. */
  const ONE_NEAR: nat := 1_000_000_000_000_000_000_000_000
  /** `env::block_timestamp()` counts nanoseconds; ids use whole seconds. */
  const NANOS_PER_SECOND: nat := 1_000_000_000
  /** Number of guardian votes that applies a proposal. */
  const APPROVAL_THRESHOLD: nat := 3

  /** The contract accounts of a project (a `HashSet`, listed in iteration order) and its links. */
  datatype ProjectInfo = ProjectInfo(
    contractIds: seq<AccountId>,
    twitterUrl: Option<string>,
    auditReportUrl: Option<string>,
    telegramUsername: Option<string>,
    description: Option<string>,
    websiteUrl: Option<string>)

  datatype ProposalKind = New | Update

  /** A pending proposal; `projectId` names the project an UPDATE replaces and is `None` for NEW. */
  datatype ProposalInfo = ProposalInfo(
    projectInfo: ProjectInfo,
    kind: ProposalKind,
    projectId: Option<ProjectId>,
    votes: set<AccountId>,
    proposedBy: AccountId)

  datatype Contract = Contract(
    guardians: set<AccountId>,
    approvedContracts: Counts,
    proposals: IterMap<ProposalId, ProposalInfo>,
    approvedProjects: IterMap<ProjectId, ProjectInfo>,
    runningId: nat)

  /** What the runtime tells a method: `predecessor_account_id`, `current_account_id`, `attached_deposit`, `block_timestamp`. */
  datatype Env = Env(predecessor: AccountId, currentAccount: AccountId, attachedDeposit: nat, blockTimestamp: nat)

  datatype Error =
    | NotPrivateCaller   // `#[private]` method called by another account
    | DepositRequired    // "Creating proposal requires depositing 1 NEAR."
    | IdCollision        // "id collision, please try again later"
    | ProjectNotFound    // "Project not found"
    | NotGuardian        // "You are not a qualified guardian"
    | ProposalNotFound   // "Proposal not found" (vote_proposal)
    | ProposalMissing    // "Unable to find the proposal." (withdraw_vote_on_proposal)
    | NotVoted           // "You did not vote the proposal before."

  /** A token transfer the call schedules (`Promise::new(receiver).transfer(amount)`). */
  datatype Transfer = Transfer(receiver: AccountId, amount: nat)

  datatype Outcome<R> = Panic(error: Error) | Ok(state: Contract, value: R, transfers: seq<Transfer>)

  /** `Contract::default()`. */
  function Init(): Contract {
    Contract({}, Empty(), Empty(), Empty(), 0)
  }

  function Seconds(blockTimestamp: nat): nat {
    blockTimestamp / NANOS_PER_SECOND
  }

  /** The id built from a timestamp in seconds and a running id: both rendered in decimal and joined. */
  function IdOf(seconds: nat, runningId: nat): string {
    Show(seconds) + Show(runningId)
  }

  /** `generate_id`: the next running id and the id string built from it. */
  function GenerateId(lastRunningId: nat, blockTimestamp: nat): (r: (nat, string))
    ensures r.0 == lastRunningId + 1
    ensures r.1 == IdOf(Seconds(blockTimestamp), r.0)
  {
    var next := lastRunningId + 1;
    (next, IdOf(Seconds(blockTimestamp), next))
  }

  /** The `HashSet<AccountId>` a JSON list of contract accounts deserialises to. */
  function ContractIdSet(contractIds: seq<AccountId>): (r: seq<AccountId>)
    ensures NoDups(r)
    ensures forall c :: c in r ==> c in contractIds
    ensures forall c :: c in contractIds ==> c in r
  {
    Dedup(contractIds)
  }

  function ProposalOf(info: ProjectInfo, kind: ProposalKind, projectId: Option<ProjectId>, proposer: AccountId): ProposalInfo {
    ProposalInfo(info, kind, projectId, {}, proposer)
  }

  // ---------------------------------------------------------------------------------------
  // Guardians
  // ---------------------------------------------------------------------------------------

  /** `add_guardian` (`#[private]`). */
  function AddGuardian(st: Contract, env: Env, accountId: AccountId): (r: Outcome<()>)
    ensures r.Panic? <==> env.predecessor != env.currentAccount
    ensures r.Panic? ==> r.error == NotPrivateCaller
    ensures r.Ok? ==> accountId in r.state.guardians && r.state.guardians - {accountId} == st.guardians - {accountId}
    ensures r.Ok? ==> r.state.(guardians := st.guardians) == st && r.transfers == []
  {
    if env.predecessor != env.currentAccount then Panic(NotPrivateCaller)
    else Ok(st.(guardians := st.guardians + {accountId}), (), [])
  }

  /** Every pending proposal with `accountId`'s vote taken away; the order is untouched (`iter_mut`). */
  function StripVotes(proposals: IterMap<ProposalId, ProposalInfo>, accountId: AccountId): (r: IterMap<ProposalId, ProposalInfo>)
    ensures r.keys == proposals.keys && r.entries.Keys == proposals.entries.Keys
    ensures forall id :: id in r.entries ==>
              && r.entries[id].votes == proposals.entries[id].votes - {accountId}
              && r.entries[id].(votes := proposals.entries[id].votes) == proposals.entries[id]
  {
    IterMap(proposals.keys,
            map id | id in proposals.entries :: proposals.entries[id].(votes := proposals.entries[id].votes - {accountId}))
  }

  /** `revoke_guardian` (`#[private]`): a removed guardian's votes leave every pending proposal. */
  function RevokeGuardian(st: Contract, env: Env, accountId: AccountId): (r: Outcome<()>)
    ensures r.Panic? <==> env.predecessor != env.currentAccount
    ensures r.Panic? ==> r.error == NotPrivateCaller
    ensures r.Ok? ==> accountId !in r.state.guardians && r.state.guardians + {accountId} == st.guardians + {accountId}
    ensures r.Ok? && accountId !in st.guardians ==> r.state == st
    ensures r.Ok? ==> && r.state.approvedContracts == st.approvedContracts
                      && r.state.approvedProjects == st.approvedProjects
                      && r.state.runningId == st.runningId
                      && r.state.proposals.keys == st.proposals.keys
                      && r.state.proposals.entries.Keys == st.proposals.entries.Keys
    ensures r.Ok? && accountId in st.guardians ==> forall id :: id in r.state.proposals.entries ==>
              accountId !in r.state.proposals.entries[id].votes
              && r.state.proposals.entries[id].votes == st.proposals.entries[id].votes - {accountId}
              && r.state.proposals.entries[id].(votes := st.proposals.entries[id].votes) == st.proposals.entries[id]
    ensures r.Ok? ==> r.transfers == []
  {
    if env.predecessor != env.currentAccount then Panic(NotPrivateCaller)
    else if accountId in st.guardians then
      Ok(st.(guardians := st.guardians - {accountId}, proposals := StripVotes(st.proposals, accountId)), (), [])
    else
      Ok(st, (), [])
  }

  /** `list_guardians`. */
  function ListGuardians(st: Contract): set<AccountId> {
    st.guardians
  }

  // ---------------------------------------------------------------------------------------
  // Proposals
  // ---------------------------------------------------------------------------------------

  /**
   * Files a proposal under a freshly generated id, or panics on an id collision.  Shared by
   * `add_project` and `update_project` after their own checks.
   */
  function Propose(st: Contract, env: Env, proposal: ProposalInfo): (r: Outcome<Option<ProposalId>>)
    ensures r.Panic? ==> r.error == IdCollision
    ensures r.Panic? <==> IdOf(Seconds(env.blockTimestamp), st.runningId + 1) in st.proposals.entries
    ensures r.Ok? ==> r.value == Some(IdOf(Seconds(env.blockTimestamp), st.runningId + 1))
    ensures r.Ok? ==>
              && r.value.Some?
              && r.value.value !in st.proposals.entries
              && r.state.proposals.entries == st.proposals.entries[r.value.value := proposal]
              && r.state.proposals.keys == st.proposals.keys + [r.value.value]
              && r.state.runningId == st.runningId + 1
              && r.state.(proposals := st.proposals, runningId := st.runningId) == st
              && r.transfers == []
  {
    var (nextId, proposalId) := GenerateId(st.runningId, env.blockTimestamp);
    if proposalId in st.proposals.entries then Panic(IdCollision)
    else Ok(st.(runningId := nextId, proposals := Insert(st.proposals, proposalId, proposal)), Some(proposalId), [])
  }

  /** `add_project` (`#[payable]`): files a NEW proposal when exactly 1 NEAR is attached. */
  function AddProject(
    st: Contract, env: Env, contractIds: seq<AccountId>,
    twitterUrl: Option<string>, auditReportUrl: Option<string>, telegramUsername: Option<string>,
    description: Option<string>, websiteUrl: Option<string>): (r: Outcome<Option<ProposalId>>)
    ensures env.attachedDeposit != ONE_NEAR ==> r == Panic(DepositRequired)
    ensures r.Panic? ==> r.error in {DepositRequired, IdCollision}
    ensures env.attachedDeposit == ONE_NEAR ==>
              (r.Panic? <==> IdOf(Seconds(env.blockTimestamp), st.runningId + 1) in st.proposals.entries)
    ensures env.attachedDeposit == ONE_NEAR && r.Panic? ==> r.error == IdCollision
    ensures r.Ok? ==> r.value == Some(IdOf(Seconds(env.blockTimestamp), st.runningId + 1))
    ensures r.Ok? ==>
              && env.attachedDeposit == ONE_NEAR
              && r.value.Some?
              && r.value.value !in st.proposals.entries
              && r.state.proposals.entries == st.proposals.entries[r.value.value := ProposalInfo(
                   ProjectInfo(ContractIdSet(contractIds), twitterUrl, auditReportUrl, telegramUsername, description, websiteUrl),
                   New, None, {}, env.predecessor)]
              && r.state.proposals.keys == st.proposals.keys + [r.value.value]
              && r.state.runningId == st.runningId + 1
              && r.state.approvedProjects == st.approvedProjects
              && r.state.approvedContracts == st.approvedContracts
              && r.state.guardians == st.guardians
              && r.transfers == []
  {
    if env.attachedDeposit != ONE_NEAR then Panic(DepositRequired)
    else
      var info := ProjectInfo(ContractIdSet(contractIds), twitterUrl, auditReportUrl, telegramUsername, description, websiteUrl);
      Propose(st, env, ProposalOf(info, New, None, env.predecessor))
  }

  /** `update_project` (`#[payable]`): files an UPDATE proposal for an approved project. */
  function UpdateProject(
    st: Contract, env: Env, projectId: ProjectId, contractIds: seq<AccountId>,
    twitterUrl: Option<string>, auditReportUrl: Option<string>, telegramUsername: Option<string>,
    description: Option<string>, websiteUrl: Option<string>): (r: Outcome<Option<ProposalId>>)
    ensures env.attachedDeposit != ONE_NEAR ==> r == Panic(DepositRequired)
    ensures env.attachedDeposit == ONE_NEAR && projectId !in st.approvedProjects.entries ==> r == Panic(ProjectNotFound)
    ensures r.Panic? ==> r.error in {DepositRequired, ProjectNotFound, IdCollision}
    ensures env.attachedDeposit == ONE_NEAR && projectId in st.approvedProjects.entries ==>
              (r.Panic? <==> IdOf(Seconds(env.blockTimestamp), st.runningId + 1) in st.proposals.entries)
    ensures env.attachedDeposit == ONE_NEAR && projectId in st.approvedProjects.entries && r.Panic? ==>
              r.error == IdCollision
    ensures r.Ok? ==> r.value == Some(IdOf(Seconds(env.blockTimestamp), st.runningId + 1))
    ensures r.Ok? ==>
              && env.attachedDeposit == ONE_NEAR
              && projectId in st.approvedProjects.entries
              && r.value.Some?
              && r.value.value !in st.proposals.entries
              && r.state.proposals.entries == st.proposals.entries[r.value.value := ProposalInfo(
                   ProjectInfo(ContractIdSet(contractIds), twitterUrl, auditReportUrl, telegramUsername, description, websiteUrl),
                   Update, Some(projectId), {}, env.predecessor)]
              && r.state.proposals.keys == st.proposals.keys + [r.value.value]
              && r.state.runningId == st.runningId + 1
              && r.state.approvedProjects == st.approvedProjects
              && r.state.approvedContracts == st.approvedContracts
              && r.state.guardians == st.guardians
              && r.transfers == []
  {
    if env.attachedDeposit != ONE_NEAR then Panic(DepositRequired)
    else if projectId !in st.approvedProjects.entries then Panic(ProjectNotFound)
    else
      var info := ProjectInfo(ContractIdSet(contractIds), twitterUrl, auditReportUrl, telegramUsername, description, websiteUrl);
      Propose(st, env, ProposalOf(info, Update, Some(projectId), env.predecessor))
  }

  // ---------------------------------------------------------------------------------------
  // Voting
  // ---------------------------------------------------------------------------------------

  /**
   * Applies an approved proposal to the projects and the contract counts.  NEW: every proposed
   * contract account is counted once more and the project is stored under a freshly generated
   * id.  UPDATE: the replaced project's accounts are counted once less, the proposed ones once
   * more, and the project is replaced; when the proposal names no project, or a project that is
   * not stored, nothing changes.
   */
  function Approve(st: Contract, p: ProposalInfo, blockTimestamp: nat): (r: Contract)
    ensures r.guardians == st.guardians && r.proposals == st.proposals
    ensures p.kind == New ==>
              var projectId := IdOf(Seconds(blockTimestamp), st.runningId + 1);
              && r.runningId == st.runningId + 1
              && r.approvedProjects.entries == st.approvedProjects.entries[projectId := p.projectInfo]
              && (projectId !in st.approvedProjects.entries ==> r.approvedProjects.keys == st.approvedProjects.keys + [projectId])
              && (forall c :: CountOf(r.approvedContracts, c) == CountOf(st.approvedContracts, c) + multiset(p.projectInfo.contractIds)[c])
    ensures p.kind == Update && p.projectId.Some? && p.projectId.value in st.approvedProjects.entries ==>
              var replaced := st.approvedProjects.entries[p.projectId.value];
              && r.runningId == st.runningId
              && r.approvedProjects.keys == st.approvedProjects.keys
              && r.approvedProjects.entries == st.approvedProjects.entries[p.projectId.value := p.projectInfo]
              && (forall c :: CountOf(r.approvedContracts, c) ==
                    (if CountOf(st.approvedContracts, c) <= multiset(replaced.contractIds)[c] then 0
                     else CountOf(st.approvedContracts, c) - multiset(replaced.contractIds)[c])
                    + multiset(p.projectInfo.contractIds)[c])
    ensures p.kind == Update && (p.projectId.None? || p.projectId.value !in st.approvedProjects.entries) ==> r == st
    ensures Valid(st.approvedContracts) ==> Valid(r.approvedContracts)
    ensures Valid(st.approvedProjects) ==> Valid(r.approvedProjects)
    ensures Positive(st.approvedContracts) ==> Positive(r.approvedContracts)
  {
    match p.kind
    case New =>
      var counts := IncrementAll(st.approvedContracts, p.projectInfo.contractIds);
      var (nextId, projectId) := GenerateId(st.runningId, blockTimestamp);
      st.(approvedContracts := counts, runningId := nextId,
          approvedProjects := Insert(st.approvedProjects, projectId, p.projectInfo))
    case Update =>
      match p.projectId
      case None => st
      case Some(projectId) =>
        if projectId !in st.approvedProjects.entries then st
        else
          var replaced := st.approvedProjects.entries[projectId];
          var counts := IncrementAll(DecrementAll(st.approvedContracts, replaced.contractIds), p.projectInfo.contractIds);
          st.(approvedContracts := counts, approvedProjects := Insert(st.approvedProjects, projectId, p.projectInfo))
  }

  /**
   * `vote_proposal`: a guardian's vote is added to the proposal's vote set; once the set
   * holds three accounts the proposal is applied, removed, and the proposer's 1 NEAR is
   * refunded.
   */
  function VoteProposal(st: Contract, env: Env, proposalId: ProposalId): (r: Outcome<bool>)
    ensures env.predecessor !in st.guardians ==> r == Panic(NotGuardian)
    ensures env.predecessor in st.guardians && proposalId !in st.proposals.entries ==> r == Panic(ProposalNotFound)
    ensures r.Ok? <==> env.predecessor in st.guardians && proposalId in st.proposals.entries
    ensures r.Ok? ==> r.value && r.state.guardians == st.guardians
    ensures r.Ok? ==>
              var p := st.proposals.entries[proposalId];
              var votes := p.votes + {env.predecessor};
              && (|votes| < APPROVAL_THRESHOLD ==>
                    && r.state.proposals.keys == st.proposals.keys
                    && r.state.proposals.entries == st.proposals.entries[proposalId := p.(votes := votes)]
                    && r.state.(proposals := st.proposals) == st
                    && r.transfers == [])
              && (APPROVAL_THRESHOLD <= |votes| ==>
                    && r.state.proposals.entries == st.proposals.entries - {proposalId}
                    && r.transfers == [Transfer(p.proposedBy, ONE_NEAR)])
    ensures r.Ok? ==>
              var p := st.proposals.entries[proposalId];
              && APPROVAL_THRESHOLD <= |p.votes + {env.predecessor}|
              && p.kind == New
              ==>
              var projectId := IdOf(Seconds(env.blockTimestamp), st.runningId + 1);
              && r.state.runningId == st.runningId + 1
              && r.state.approvedProjects.entries == st.approvedProjects.entries[projectId := p.projectInfo]
              && (projectId !in st.approvedProjects.entries ==>
                    r.state.approvedProjects.keys == st.approvedProjects.keys + [projectId])
              && (forall c :: CountOf(r.state.approvedContracts, c) ==
                    CountOf(st.approvedContracts, c) + multiset(p.projectInfo.contractIds)[c])
    ensures r.Ok? ==>
              var p := st.proposals.entries[proposalId];
              && APPROVAL_THRESHOLD <= |p.votes + {env.predecessor}|
              && p.kind == Update && p.projectId.Some? && p.projectId.value in st.approvedProjects.entries
              ==>
              var replaced := st.approvedProjects.entries[p.projectId.value];
              && r.state.runningId == st.runningId
              && r.state.approvedProjects.keys == st.approvedProjects.keys
              && r.state.approvedProjects.entries == st.approvedProjects.entries[p.projectId.value := p.projectInfo]
              && (forall c :: CountOf(r.state.approvedContracts, c) ==
                    (if CountOf(st.approvedContracts, c) <= multiset(replaced.contractIds)[c] then 0
                     else CountOf(st.approvedContracts, c) - multiset(replaced.contractIds)[c])
                    + multiset(p.projectInfo.contractIds)[c])
    ensures r.Ok? ==>
              var p := st.proposals.entries[proposalId];
              && APPROVAL_THRESHOLD <= |p.votes + {env.predecessor}|
              && p.kind == Update && (p.projectId.None? || p.projectId.value !in st.approvedProjects.entries)
              ==>
              r.state.(proposals := st.proposals) == st
  {
    if env.predecessor !in st.guardians then Panic(NotGuardian)
    else if proposalId !in st.proposals.entries then Panic(ProposalNotFound)
    else
      var p := st.proposals.entries[proposalId];
      var voted := p.(votes := p.votes + {env.predecessor});
      if APPROVAL_THRESHOLD <= |voted.votes| then
        var approved := Approve(st, voted, env.blockTimestamp);
        Ok(approved.(proposals := Remove(approved.proposals, proposalId)), true, [Transfer(p.proposedBy, ONE_NEAR)])
      else
        Ok(st.(proposals := Insert(st.proposals, proposalId, voted)), true, [])
  }

  /** `withdraw_vote_on_proposal`: takes back exactly the caller's vote. */
  function WithdrawVoteOnProposal(st: Contract, env: Env, proposalId: ProposalId): (r: Outcome<bool>)
    ensures env.predecessor !in st.guardians ==> r == Panic(NotGuardian)
    ensures env.predecessor in st.guardians && proposalId !in st.proposals.entries ==> r == Panic(ProposalMissing)
    ensures (env.predecessor in st.guardians && proposalId in st.proposals.entries
             && env.predecessor !in st.proposals.entries[proposalId].votes) ==> r == Panic(NotVoted)
    ensures r.Ok? <==> (env.predecessor in st.guardians && proposalId in st.proposals.entries
                        && env.predecessor in st.proposals.entries[proposalId].votes)
    ensures r.Ok? ==>
              var p := st.proposals.entries[proposalId];
              && env.predecessor in p.votes
              && r.value
              && r.state.proposals.keys == st.proposals.keys
              && r.state.proposals.entries == st.proposals.entries[proposalId := p.(votes := p.votes - {env.predecessor})]
              && r.state.(proposals := st.proposals) == st
              && r.transfers == []
  {
    if env.predecessor !in st.guardians then Panic(NotGuardian)
    else if proposalId !in st.proposals.entries then Panic(ProposalMissing)
    else
      var p := st.proposals.entries[proposalId];
      if env.predecessor !in p.votes then Panic(NotVoted)
      else Ok(st.(proposals := Insert(st.proposals, proposalId, p.(votes := p.votes - {env.predecessor}))), true, [])
  }

  // ---------------------------------------------------------------------------------------
  // Views
  // ---------------------------------------------------------------------------------------

  /** `check_contract_whitelisted`: the account has an entry in `approved_contracts`. */
  function CheckContractWhitelisted(st: Contract, contractId: AccountId): (r: bool)
    ensures Positive(st.approvedContracts) ==> (r <==> 1 <= CountOf(st.approvedContracts, contractId))
  {
    contractId in st.approvedContracts.entries
  }

  /** `get_project_by_id`. */
  function GetProjectById(st: Contract, projectId: ProjectId): (r: Option<ProjectInfo>)
    ensures r.Some? <==> projectId in st.approvedProjects.entries
    ensures r.Some? ==> r.value == st.approvedProjects.entries[projectId]
  {
    Get(st.approvedProjects, projectId)
  }

  /** The paging shared by the `list_*` views, applied to one map. */
  function ListEntries<K(==), V>(m: IterMap<K, V>, fromIndex: int, limit: int): (r: seq<(K, V)>)
    requires IsI32(fromIndex) && IsI32(limit)
    ensures |r| <= AsUsize(limit)
    ensures forall i :: 0 <= i < |r| ==> r[i].0 in m.entries && m.entries[r[i].0] == r[i].1
    ensures Valid(m) && 0 <= fromIndex ==>
              && |r| == (if |m.keys| <= fromIndex then 0 else Min(AsUsize(limit), |m.keys| - fromIndex))
              && forall i :: 0 <= i < |r| ==> r[i].0 == m.keys[|m.keys| - 1 - (fromIndex + i)]
  {
    PageOfEntries(m, AsUsize(fromIndex), AsUsize(limit));
    Page(Items(m), AsUsize(fromIndex), AsUsize(limit))
  }

  lemma PageOfEntries<K, V>(m: IterMap<K, V>, fromIndex: nat, limit: nat)
    ensures var r := Page(Items(m), fromIndex, limit);
            && (forall i :: 0 <= i < |r| ==> r[i].0 in m.entries && m.entries[r[i].0] == r[i].1)
            && (Valid(m) ==>
                 && |r| == (if |m.keys| <= fromIndex then 0 else Min(limit, |m.keys| - fromIndex))
                 && forall i :: 0 <= i < |r| ==> r[i].0 == m.keys[|m.keys| - 1 - (fromIndex + i)])
  {
    var items := Items(m);
    var r := Page(items, fromIndex, limit);
    forall i | 0 <= i < |r| ensures r[i].0 in m.entries && m.entries[r[i].0] == r[i].1 {
      assert r[i] == items[|items| - 1 - (fromIndex + i)];
    }
    if Valid(m) {
      assert |items| == |m.keys|;
      forall i | 0 <= i < |r| ensures r[i].0 == m.keys[|m.keys| - 1 - (fromIndex + i)] {
        assert r[i] == items[|items| - 1 - (fromIndex + i)];
      }
    }
  }

  /** `list_projects`: approved projects in reverse storage order, which is newest first since projects are never removed. */
  function ListProjects(st: Contract, fromIndex: int, limit: int): (r: seq<(ProjectId, ProjectInfo)>)
    requires IsI32(fromIndex) && IsI32(limit)
    ensures |r| <= AsUsize(limit)
    ensures forall i :: 0 <= i < |r| ==> GetProjectById(st, r[i].0) == Some(r[i].1)
  {
    ListEntries(st.approvedProjects, fromIndex, limit)
  }

  /**
   * `list_proposals`: pending proposals in reverse storage order; newest first only while no
   * proposal has been removed, since a removal moves the last key into the gap.
   */
  function ListProposals(st: Contract, fromIndex: int, limit: int): (r: seq<(ProposalId, ProposalInfo)>)
    requires IsI32(fromIndex) && IsI32(limit)
    ensures |r| <= AsUsize(limit)
    ensures forall i :: 0 <= i < |r| ==> r[i].0 in st.proposals.entries && st.proposals.entries[r[i].0] == r[i].1
  {
    ListEntries(st.proposals, fromIndex, limit)
  }

  /**
   * `list_contracts`: whitelisted contract accounts with their counts, in reverse storage
   * order; newest first only while no account has been removed.
   */
  function ListContracts(st: Contract, fromIndex: int, limit: int): (r: seq<(AccountId, nat)>)
    requires IsI32(fromIndex) && IsI32(limit)
    ensures |r| <= AsUsize(limit)
    ensures forall i :: 0 <= i < |r| ==> CheckContractWhitelisted(st, r[i].0) && CountOf(st.approvedContracts, r[i].0) == r[i].1
  {
    ListEntries(st.approvedContracts, fromIndex, limit)
  }
}

=== FILE: wrappers.dfy ===
/** Rust's `Option`, as returned by the contract's getters and by `add_project`. */
module Wrappers {

  datatype Option<+T> = None | Some(value: T)
}
